=== FILE: README.md ===
# Medication cabinet decision logic in Dafny

This project models the decision logic of a Django application that runs a
medication-dispensing cabinet on a space station. The application
authenticates astronauts by face, dispenses medication against dose
thresholds, keeps stock and stock status, recognises pills from photos, and
reads medication bottle labels. The model keeps the rules and leaves out the
measurements. Face distances, contour side counts, circularity, colour
centroids, image similarity, classifier output, OCR text and the fuzzy string
ratio all come from foreign libraries, so they enter as parameters.

Modules, one per file:

- `Common` (common.dfy): `Option` and Python's `round(x, 1)` and `round(x, 2)` on exact reals.
- `Text` (text.dfy): the ASCII string operations the bottle reader uses: `lower`, `strip`, `split()`, `' '.join`, `split('\n')` and `in`.
- `Ranking` (ranking.dfy): `list.sort(key=..., reverse=True)` and the `[:k]` slice.
- `Inventory` (inventory.dfy): the `Medication` row, `is_low_stock`, `update_status`, `Medication.save` and `MedicationCheckout.save`.
- `Thresholds` (thresholds.dfy): the two `check_medication_threshold` functions. One is in `views.py`, and `enhanced_views.py` repeats its body. The other is the variant in `views_additions.py`.
- `Checkout` (checkout.dfy): the live `checkout_medication` view and `dispense_medication`. Both are pure transitions on a store snapshot.
- `FaceAuth` (face.dfy): the accept/reject rule of `authenticate_face`.
- `PillFeatures` (pill_features.dfy): the shape rule, `rgb_to_color_name` and `match_pill_by_features`.
- `PillRecognition` (pill_recognition.dfy): `match_pill_by_image` and the `recognize_pill` cascade.
- `Dosage` (dosage.dfy): `extract_dosage`. The regular expression is modelled twice: as a greedy scanner, and as a declarative description of every match.
- `BottleReader` (bottle_reader.dfy): `search_for_medications_in_text` and `process_bottle_image`.
- `MedicationSearch` (search.dfy): `search_medications` and `is_admin`.

Python's float comparisons against fractional limits are written exactly on
integers:

- `q > 1.5 * L` is `2q > 3L`;
- `T >= D * (pct / 100)` is `100T >= D * pct`, and `T > D * (pct / 100)` is `100T > D * pct`;
- `q <= min * 0.5` is `2q <= min`.

Behaviours of the code worth knowing:

- An oval needs 5 to 7 sides. A 5-sided contour with circularity above 0.7 is ROUND.
- A contour of fewer than 4 sides with circularity of at most 0.7 is CAPSULE.
- A face that is found but cannot be encoded leaves no audit record. Neither does an empty roster.
- `views.py` imports `MedicationThreshold` from a `models.py` that does not declare it. The failing import returns `(False, None)`, which is the same answer as a missing threshold row. The model therefore treats the threshold as optional on the medication.
- An image match just above 60 can be reported as exactly 60.00 after rounding.
- The classifier stage does not look at stock. It can name an empty medication.
- A medication whose name is blank matches every label at 95.
- The `views_additions.py` evaluator reads the day's total back from the warning log after it has written the single-dose record. A request over the single-dose limit is therefore counted twice there.

## Model

| member | source | states |
|---|---|---|
| Common.Round1 | medical_inventory/views.py:178 | `round(x, 1)` is a multiple of 0.1 within half a step of `x` (`x - 0.05 < r <= x + 0.05`), which makes it the half-up rounding of `x` |
| Common.Round2 | medical_inventory/views.py:1384 | `round(x, 2)` is a multiple of 0.01 within half a step of `x` (`x - 0.005 < r <= x + 0.005`), which makes it the half-up rounding of `x` |
| Common.Round1AtLeast | medical_inventory/views.py:178 | rounding to one decimal never takes a value below a whole-number bound it meets |
| Text.Lower | medical_inventory/views.py:1925 | lower-casing keeps the length and folds each character on its own |
| Text.LowerPreservesContains | medical_inventory/views.py:1951 | a substring stays a substring after both sides are lower-cased |
| Text.Strip | medical_inventory/views.py:1936 | the result is the slice of the text that has only whitespace before and after it, and has no whitespace at either end; an all-whitespace text strips to empty |
| Text.StripUnbounded | medical_inventory/views.py:1936 | stripping a text with no whitespace at its ends changes nothing |
| Text.Words | medical_inventory/views.py:1944 | `split()` yields whitespace-free non-empty words, and none exactly when the text is all whitespace |
| Text.WordsOfWord | medical_inventory/views.py:1944 | a whitespace-free non-empty text splits into itself |
| Text.WordsSplitAtSpace | medical_inventory/views.py:1944 | `split()` cuts at every whitespace character: the words of `a + c + b` are the words of `a` followed by those of `b`; with the empty case and `WordsOfWord` this fixes the words of every text |
| Text.WordsOfJoin | medical_inventory/views.py:1928 | splitting words joined by single spaces gives the words back |
| Text.CollapseIdempotent | medical_inventory/views.py:1928 | collapsing whitespace twice is collapsing it once |
| Text.SplitOn | medical_inventory/views.py:1974 | `split('\n')` yields at least one piece, and no piece holds the separator |
| Text.SplitOnJoin | medical_inventory/views.py:1974 | joining the pieces with the separator gives the text back |
| Ranking.SortDesc | medical_inventory/views.py:1995 | the sorted list is a permutation of the input, highest score first |
| Ranking.TopK | medical_inventory/views.py:1322-1323 | the `[:k]` of the sorted list has `min(k, n)` entries, a sub-multiset of the input (no entry repeated more often than in the input), best first; any input left out scores no higher than every kept entry |
| Ranking.PrefixOfPermutation | medical_inventory/views.py:1391-1392 | a prefix of a sorted permutation holds input elements and beats everything it leaves out |
| Inventory.UpdateStatus | medical_inventory/models.py:103-112 | `update_status` sets the status from the two quantities and changes no other field |
| Inventory.SaveMedication | medical_inventory/models.py:114-116 | `save` stores the status recomputed from the quantities and changes no other field |
| Inventory.OutIffEmpty | medical_inventory/models.py:103-106 | the status is OUT exactly when the stock is zero, whatever the minimum |
| Inventory.StatusBands | medical_inventory/models.py:107-112 | for non-zero stock: CRITICAL iff `2q <= min`; LOW iff `min < 2q` and `q <= min`; for positive stock, NORMAL iff `q > min` |
| Inventory.StatusAgreesWithLowStock | medical_inventory/models.py:99-112 | with a non-negative minimum, the status is not NORMAL exactly when `is_low_stock` holds |
| Inventory.NegativeMinimumDisagrees | medical_inventory/models.py:99-106 | with a negative minimum, an empty row is OUT but not low on stock |
| Inventory.StatusMonotone | medical_inventory/models.py:103-112 | more stock never gives a worse status |
| Inventory.SaveIdempotent | medical_inventory/models.py:114-116 | saving twice equals saving once, and the stored status depends only on the quantities |
| Inventory.SaveCheckout | medical_inventory/models.py:144-149 | the first save of a checkout lowers the medication's stock by exactly its quantity, recomputes the status and changes no other field of the medication; the row gets a key and is otherwise unchanged; a later save touches nothing |
| Inventory.ResaveKeepsStock | medical_inventory/models.py:144-149 | saving an already-saved checkout again leaves the medication unchanged |
| Inventory.CheckoutKeepsStockNonNegative | medical_inventory/models.py:144-149 | a checkout no larger than the stock leaves the stock non-negative |
| Thresholds.MostSevere | medical_inventory/views.py:679-726 | the reported severity is one of the written records' severities and no record is more severe; it is None exactly when nothing was written |
| Thresholds.Evaluate | medical_inventory/views.py:662-728 | a missing threshold gives `(False, None)`; the flag is true exactly when a record is written; at most two records; the severity is the most severe record's |
| Thresholds.EvaluateRules | medical_inventory/views.py:681-726 | each of the four possible records is written exactly under its own condition on the request and the day's total, and no other record is written |
| Thresholds.OverSingleDoseEscalates | medical_inventory/views.py:682-692 | exceeding the single-dose limit gives at least HIGH, and CRITICAL above 1.5 times the limit |
| Thresholds.DailyExcessIsCritical | medical_inventory/views.py:704-714 | going over the daily limit makes the result CRITICAL whatever the single-dose check said |
| Thresholds.ApproachingIsMediumOnlyAlone | medical_inventory/views.py:716-726 | in the approaching band the result is MEDIUM exactly when the single-dose limit was respected |
| Thresholds.SeverityMonotone | medical_inventory/views.py:681-726 | a larger request or a larger earlier total never gives a milder result |
| Thresholds.DayStart | medical_inventory/views.py:695 | the day starts at a multiple of 86400 seconds, at most a day before now |
| Thresholds.Stamp | medical_inventory/views.py:684-722 | each written warning becomes a record with the astronaut, medication, quantity and time |
| Thresholds.WarnedTodayAppend | medical_inventory_enhancements/medical_inventory_enhancements/views_additions.py:113-121 | adding a record to the warning log adds its quantity to the day's sum exactly when it counts for that user, medication and day |
| Thresholds.VariantSingle | medical_inventory_enhancements/medical_inventory_enhancements/views_additions.py:101-111 | the variant writes a single-dose record exactly above the limit: HIGH above 1.5 times the limit, MEDIUM otherwise |
| Thresholds.VariantDaily | medical_inventory_enhancements/medical_inventory_enhancements/views_additions.py:123-140 | the variant writes CRITICAL over the daily limit, LOW when the total is strictly above the percentage in exact arithmetic (`100T > D * pct`), and nothing otherwise |
| Thresholds.CheckVariant | medical_inventory_enhancements/medical_inventory_enhancements/views_additions.py:91-142 | the log only grows, by at most two records; the flag is true exactly when it grew; the daily total counts a single-dose excess twice |
| Thresholds.BoundaryDiffers | medical_inventory_enhancements/medical_inventory_enhancements/views_additions.py:131 | with limits 10/80 and a total of 8, where the double `10 * (80 / 100)` is exactly 8.0, `views.py` warns MEDIUM and the variant stays silent |
| Thresholds.DoubleCountExample | medical_inventory_enhancements/medical_inventory_enhancements/views_additions.py:101-125 | a first request of 3 against limits 2 and 5 is over the daily limit for the variant, but `views.py` only reports HIGH |
| Checkout.Commit | medical_inventory/views.py:1073-1088 | serving one item lowers that medication's stock by the quantity, recomputes its status and changes none of its other fields, and leaves every other medication unchanged; it appends one checkout row under the next key; warnings only grow; a response warning is reported exactly when a record was written |
| Checkout.Run | medical_inventory/views.py:1062-1090 | the loop stops early exactly when it reports why; one checkout row per processed item; stock stays non-negative |
| Checkout.Accepted | medical_inventory/views.py:1066-1071 | the stock-only reference count of served items never exceeds the request |
| Checkout.AcceptedIsFirstMisfit | medical_inventory/views.py:1066-1071 | the reference count stops exactly at the first item that does not fit the stock the earlier items left |
| Checkout.RunProcessesAccepted | medical_inventory/views.py:1062-1090 | the loop serves exactly the reference count of items, so a threshold warning never stops a checkout |
| Checkout.RunStopsAtFirstMisfit | medical_inventory/views.py:1062-1071 | every processed item fitted, and the first unprocessed item does not fit |
| Checkout.RunConservesStock | medical_inventory/views.py:1062-1090 | each medication's stock ends lowered by exactly what the processed items asked of it |
| Checkout.RunStopReason | medical_inventory/views.py:1063-1071 | an early stop names the first unserved item: unknown medication, or quantity above what is left, with that medication's name |
| Checkout.RowsContent | medical_inventory/views.py:1083-1088 | checkout row `i` records item `i` under key `pk + i` |
| Checkout.RunRows | medical_inventory/views.py:1083-1088 | the checkout table becomes the old table followed by one row per processed item, in request order |
| Checkout.RunKeepsWarnings | medical_inventory/views.py:1074-1080 | the warning table only grows, and there is at most one response warning per processed item |
| Checkout.RunAccumulatesDailyTotal | medical_inventory/views.py:695-702 | today's checkout total grows by exactly the processed quantities, so each threshold check sees every earlier checkout of the day |
| Checkout.CheckoutMedication | medical_inventory/views.py:1049-1121 | an unknown astronaut fails with 500 and changes nothing; the view completes exactly when the loop served every item; a warning message is present exactly when warnings were triggered; failures are 400 or 500; stock stays non-negative |
| Checkout.Dispense | medical_inventory_enhancements/medical_inventory_enhancements/views_additions.py:56-88 | the quantity defaults to 1; asking more than the stock changes nothing; otherwise the variant check runs, the stock drops by the quantity whether or not it warned, the status is recomputed, and no other field or medication changes |
| FaceAuth.Argmin | medical_inventory/views.py:134 | `argmin` returns the first index holding the smallest distance |
| FaceAuth.Ascending | medical_inventory/views.py:158 | `sorted` returns a non-decreasing permutation |
| FaceAuth.Decide | medical_inventory/views.py:134-193 | the face is rejected as unrecognised exactly when every distance exceeds 0.45; an ambiguous rejection has a gap below 0.08; an acceptance has confidence at least 55 |
| FaceAuth.Authenticate | medical_inventory/views.py:72-206 | each outcome holds exactly under its own condition, in the view's order: InvalidRequest iff no image was posted, NoFace iff neither detector found a face, NoEncoding iff a face was found but nothing was encoded, NoEnrolledUsers iff encodings exist but no astronaut is enrolled; otherwise the first encoding's decision is the answer, and an accepted astronaut is enrolled |
| FaceAuth.Audit | medical_inventory/views.py:89-185 | success is logged exactly for an accepted face; a failure is logged exactly for no face, unrecognised or ambiguous |
| FaceAuth.GapTest | medical_inventory/views.py:157-164 | the sorted-list gap test equals the reference test: every other distance is at least the gap above the best |
| FaceAuth.DecideAcceptsIff | medical_inventory/views.py:140-178 | when the reference rule accepts astronaut `k`, the view logs in `k` with confidence `round((1 - d) * 100, 1)`; an acceptance always satisfies the reference rule |
| FaceAuth.AcceptedIffSomeMatch | medical_inventory/views.py:140-178 | a face is accepted exactly when some astronaut satisfies the reference rule |
| FaceAuth.TieRejected | medical_inventory/views.py:157-174 | two astronauts tied for the best distance are never accepted |
| FaceAuth.ConfidenceRange | medical_inventory/views.py:178 | with non-negative distances, the confidence of an acceptance is between 55 and 100 |
| FaceAuth.PerfectSingleMatch | medical_inventory/views.py:157-178 | a single enrolled astronaut at distance zero is accepted at 100 |
| FaceAuth.FirstEncodingDecides | medical_inventory/views.py:130-193 | only the first encoding decides: two encoding lists with the same head get the same answer |
| FaceAuth.AuthenticateAcceptsIff | medical_inventory/views.py:80-193 | the view accepts exactly when a face was seen, encoded and astronauts are enrolled, and the first encoding has a reference match |
| PillFeatures.ShapeOf | medical_inventory/views.py:1225-1232 | never DIAMOND; ROUND iff under 6 sides and circularity above 0.7; SQUARE iff 4 sides otherwise; OVAL iff 5 sides otherwise, or 6 or 7; CAPSULE iff under 4 sides otherwise, or 8 or more |
| PillFeatures.ColorNameRegions | medical_inventory/views.py:1258-1282 | each named colour is produced exactly inside its closed-form region, and MULTI-COLOR only outside all of them |
| PillFeatures.RegionsDisjoint | medical_inventory/views.py:1263-1280 | the colour regions do not overlap |
| PillFeatures.EveryColorNamed | medical_inventory/views.py:1258-1282 | every `pill_color` choice is the name of some colour |
| PillFeatures.ExtractFeatures | medical_inventory/views.py:1208-1241 | features exist exactly when a contour was found, with the shape rule's shape and the first centre's colour name |
| PillFeatures.Score | medical_inventory/views.py:1298-1307 | a score is 0, 40 or 80: 80 iff both shape and colour match, 0 iff neither does |
| PillFeatures.Scored | medical_inventory/views.py:1294-1319 | the candidates are exactly the in-stock medications scoring above 30, each with its score |
| PillFeatures.ScoredAppend | medical_inventory/views.py:1294-1319 | scoring a concatenation of tables scores each part, so the candidates keep table order, one per kept row |
| PillFeatures.ScoredOne | medical_inventory/views.py:1294-1319 | a single medication yields its match exactly when it is in stock and scores above 30 |
| PillFeatures.MatchByFeatures | medical_inventory/views.py:1285-1323 | no features give no candidates; otherwise `min(5, n)` of the `n` scored candidates as a sub-multiset of them, best first, each an in-stock medication scoring 40 or 80; a match left out scores no higher than every one kept |
| PillRecognition.ImageCandidates | medical_inventory/views.py:1369-1389 | the candidates are exactly the in-stock medications with a photo whose comparison succeeded above 60, rounded to two decimals |
| PillRecognition.ImageCandidatesAppend | medical_inventory/views.py:1369-1389 | the candidates of a concatenation of tables are those of each part, so they keep table order |
| PillRecognition.ImageCandidatesOne | medical_inventory/views.py:1369-1389 | a single medication is a candidate exactly when it has a photo, is in stock and its comparison succeeded above 60, reported rounded to two decimals |
| PillRecognition.MatchByImage | medical_inventory/views.py:1364-1392 | `min(5, n)` of the `n` candidates as a sub-multiset of them, best first; any candidate left out scores no higher than every one kept |
| PillRecognition.ImageConfidenceFloor | medical_inventory/views.py:1381-1384 | every reported image confidence is at least 60 |
| PillRecognition.RoundedToThreshold | medical_inventory/views.py:1381-1384 | a similarity of 60.004 passes the filter and is reported as exactly 60 |
| PillRecognition.FindMedication | medical_inventory/views.py:1428 | the lookup by primary key succeeds exactly when such a medication exists, and returns it |
| PillRecognition.Recognize | medical_inventory/views.py:1400-1523 | no image is the only invalid request; at most five matches; NONE exactly when there are no matches; CNN_MODEL exactly when the classifier is confident and names a stored medication; the other stages report the features found |
| PillRecognition.CascadeOrder | medical_inventory/views.py:1449-1497 | feature matching answers exactly when the classifier did not and the features match something; image similarity exactly when neither earlier stage answered and it matches something |
| PillRecognition.RecognizeReports | medical_inventory/views.py:1457-1508 | each fallback method reports its own stage's list, and NONE reports an empty list |
| PillRecognition.FallbackMatchesInStock | medical_inventory/views.py:1449-1497 | matches from the two fallback stages always name in-stock medications |
| PillRecognition.CnnIgnoresStock | medical_inventory/views.py:1420-1443 | a confident classifier naming an empty medication still wins |
| Dosage.DigitRunSpan | medical_inventory/views.py:1821 | the digit run covers digits only and stops before a non-digit |
| Dosage.SpaceRunSpan | medical_inventory/views.py:1821 | the whitespace run covers whitespace only and stops before anything else |
| Dosage.StartsWithAtChars | medical_inventory/views.py:1821 | a case-insensitive word test at a position holds exactly when every character folds to the word's |
| Dosage.ScanFirstHit | medical_inventory/views.py:2001 | the scan returns the first start position where the engine matches, or none when no position matches |
| Dosage.NumLenIsNumber | medical_inventory/views.py:1821 | the greedy number is a valid `\d+\.?\d*` |
| Dosage.MatchIsGreedy | medical_inventory/views.py:1821 | any match at a position uses the greedy number and whitespace, and a unit no longer than the engine's |
| Dosage.GreedyMatch | medical_inventory/views.py:1821 | an engine hit is a match, and no longer unit matches there |
| Dosage.HitIffMatch | medical_inventory/views.py:1821 | the engine hits at a position exactly when the pattern matches there |
| Dosage.ExtractDosageSound | medical_inventory/views.py:1999-2004 | a found dosage is the rendering "number unit" of the leftmost match, with the longest unit there |
| Dosage.ExtractDosageNone | medical_inventory/views.py:1999-2004 | no dosage is found exactly when the pattern matches nowhere |
| Dosage.ExampleLabel | medical_inventory/views.py:2001-2003 | the label "Take 5 MG" yields "5 MG", case kept |
| BottleReader.CleanLines | medical_inventory/views.py:1974-1975 | each line of the raw text is lower-cased and stripped on its own |
| BottleReader.FuzzyLineFirst | medical_inventory/views.py:1972-1983 | the fuzzy rung answers with the similarity of the first cleaned line of 3 or more characters scoring above 0.7, and with nothing exactly when no line qualifies |
| BottleReader.AllInIff | medical_inventory/views.py:1961 | the all-words test holds exactly when every word occurs in the text |
| BottleReader.LadderRungs | medical_inventory/views.py:1950-1983 | each rung fires exactly when it holds and every earlier rung failed; the main word is the first word; a fuzzy match carries the rung's similarity |
| BottleReader.LadderOrder | medical_inventory/views.py:1936-1983 | word rungs fire only for names of several words that are not themselves in the text; the main word is the name's first word; a fuzzy match means the name is absent and a line qualified with that similarity |
| BottleReader.FoundScoresPositive | medical_inventory/views.py:1950-1985 | every rung scores above 49, so the `score > 0` filter drops only medications no rung found |
| BottleReader.FuzzyRanksLast | medical_inventory/views.py:1950-1981 | with a ratio of at most 1, a fuzzy score lies in (49, 70] and ranks below every exact or word match |
| BottleReader.AllWordsScoreAtLeast85 | medical_inventory/views.py:1950-1963 | a name of several words all present in the text scores at least 85 |
| BottleReader.BlankNameAlwaysFound | medical_inventory/views.py:1936-1953 | a blank name is an exact match in every text |
| BottleReader.Candidates | medical_inventory/views.py:1934-1991 | every candidate is a medication some rung found, scored by its rung above zero, and every medication a rung found is a candidate |
| BottleReader.CandidatesAppend | medical_inventory/views.py:1934-1991 | the candidates of a concatenation of tables are those of each part, so they keep table order |
| BottleReader.CandidatesOne | medical_inventory/views.py:1934-1991 | a single medication is listed exactly when a rung finds it with a positive score, with that rung's method and points |
| BottleReader.Search | medical_inventory/views.py:1910-1997 | empty text finds nothing; otherwise the result is a permutation of the candidates, highest score first |
| BottleReader.SearchMembers | medical_inventory/views.py:1924-1997 | a medication is reported exactly when some rung finds it in the lower-cased, whitespace-collapsed text, with that rung's method and score |
| BottleReader.ReadBest | medical_inventory/views.py:2039-2077 | a non-empty best-first list is read as its first medication with that score rounded to one decimal and that match's method; `all_matches` is `matches[:3]` entry by entry, each with its own name, score rounded to one decimal, and method; the label's dosage wins over the stored one; the location is the medication's container location, or the fixed text when that is blank |
| BottleReader.ProcessBottle | medical_inventory/views.py:2006-2081 | unreadable exactly for fewer than 3 characters; no match carries the raw text; a reading takes the top search result as its medication, score and method, and lists `matches[:3]` of the search entry by entry, reports the container location or the fixed text when it is blank, and falls back to the stored dosage only when none is extracted |
| BottleReader.BestMatchIsTop | medical_inventory/views.py:2040-2051 | the chosen medication has the highest score found, reported rounded to one decimal |
| BottleReader.NoMatchIff | medical_inventory/views.py:2011-2038 | no match is reported exactly when the label is readable and no rung finds any medication |
| MedicationSearch.Filter | medical_inventory_enhancements/medical_inventory_enhancements/views_additions.py:31-35 | the filter keeps exactly the medications whose name, description or category contains the query, ignoring case |
| MedicationSearch.Page | medical_inventory_enhancements/medical_inventory_enhancements/views_additions.py:29 | the page is the first `min(20, n)` rows |
| MedicationSearch.Search | medical_inventory_enhancements/medical_inventory_enhancements/views_additions.py:25-36 | at most 20 rows; a blank query lists the first 20 medications; otherwise the page is the first 20 matches of the stripped query in table order, so every row matches and a short page holds every match |
| MedicationSearch.FilterAppend | medical_inventory_enhancements/medical_inventory_enhancements/views_additions.py:31-35 | filtering a concatenation filters each part, so the filter keeps table order |
| MedicationSearch.FilterIdempotent | medical_inventory_enhancements/medical_inventory_enhancements/views_additions.py:31-35 | filtering twice with the same query changes nothing |
| MedicationSearch.FilterIgnoresCase | medical_inventory_enhancements/medical_inventory_enhancements/views_additions.py:31-35 | two queries that lower-case alike give the same rows |
| MedicationSearch.SearchIgnoresPadding | medical_inventory_enhancements/medical_inventory_enhancements/views_additions.py:27 | surrounding whitespace in the query never changes the answer |
| MedicationSearch.UniversalQueryListsAll | medical_inventory_enhancements/medical_inventory_enhancements/views_additions.py:31-35 | a query every medication matches keeps the whole table |

## Left out

- Face detection, face encoding and `face_distance` belong to the `face_recognition` library. The model receives the face counts and the distance lists.
- OpenCV contours, circularity, polygon approximation, k-means, histogram correlation, image preprocessing, Tesseract OCR and TensorFlow inference are foreign numerics. Their results are parameters.
- The training script in `models/` is not part of this model.
- `SequenceMatcher.ratio` is a parameter of the bottle reader. Only `BottleReader.FuzzyRanksLast` assumes it is at most 1.
- ESP32 unlocking is network and serial I/O. `CheckoutMedication` receives the unlock result as a parameter.
- The emergency PIN uses SHA-256 and logging, and is not part of this model.
- Rendering, CRUD views, CSV export, QR codes, photo capture, temporary files, forms, URLs, admin and settings are Django plumbing, and are not part of this model.
- Definitions that Python shadows with a later `def` are dead code and are not modelled. One example is the first `checkout_medication` in `views.py`.
- Database races on stock decrements are not modelled. Every transition is applied to one snapshot.
- `SystemLog` rows and their description texts, the `print` traces and exception messages are not modelled. `FaceAuth.Audit` records only which kind of log entry the face view writes.
- The exception branches in the face view and the checkout view raise only from foreign calls or malformed requests. They are not modelled.
- The face view's fallback after its loop is unreachable, because the loop returns on its first pass. It is not modelled.
- The classifier's class labels and medication names are not modelled. The classifier stage is reduced to a class index and a confidence.
- Common.Round1: models `round` as half-up on exact reals. Python rounds the binary float half-to-even, so the two can differ at exact halves.
- Common.Round2: same as `Round1`, at two decimals.
- Thresholds.VariantDaily: compares `100T > D * pct` exactly, while views_additions.py compares with the double `D * (pct / 100)`. That product can fall just below the exact value: with `D = 100`, `pct = 29` and `T = 29`, Python computes 28.999999999999996 and writes a LOW record, and the model writes nothing. `views.py` warns MEDIUM on the same input, so the two evaluators do not always disagree at the exact percentage.
- Thresholds.Evaluate: compares `100T >= D * pct` exactly. Python's float `pct / 100` can be slightly above the exact value, for example at `pct = 7`.
- Text.Lower: folds ASCII letters only. Python's `lower` also folds other scripts.
- Text.Words: splits on ASCII whitespace and the separators 28 to 31 only. Python's `split()` also splits on other Unicode spaces.
- Dosage.ExtractDosageSound: reads `\d` as ASCII digits, `\s` as ASCII whitespace, and case folding as ASCII. Python's Unicode matching also accepts other digits, spaces and case variants.
- MedicationSearch.Filter: models `icontains` with ASCII case folding. The database's own collation may fold more.
- Ranking.SortDesc: states a permutation in non-increasing score order. The stability of Python's sort is not stated, although `Insert` keeps earlier elements first among equal scores.
- `is_admin` is modelled as `MedicationSearch.IsAdmin`, a one-line predicate with no contract to state.
- The JSON shapes of the responses are reduced to the fields the decisions depend on. Generic names, image URLs and reason strings are not modelled.
- Text.Strip: strips ASCII whitespace and the separators 28 to 31 only. Python's `strip()` also removes other Unicode spaces.
- FaceAuth.Decide: reads each measured distance, and the limits 0.45 and 0.08, as exact reals. `face_distance` returns IEEE doubles, and the view compares them and subtracts them in double arithmetic. So cases at the boundary can differ. For distances `[0.01, 0.09]`, Python's gap `0.09 - 0.01` comes out as exactly `0.08`, which is not below the limit, so Python accepts. The exact gap of the two doubles is just below 0.08, so the model answers Ambiguous. A distance equal to the double `0.45` also lies slightly above the real 0.45.
- Checkout.Dispense: `dispense_medication` reads and writes `medication.quantity`, a field the `Medication` model in `models.py` does not declare (its stock is `current_quantity`). As written, the view raises `AttributeError` on every POST. The model reads that field as the current stock, so it describes the evidently intended behaviour, not the code as written.
- MedicationSearch.Filter: `search_medications` filters on `category__icontains`, and the `Medication` model in `models.py` declares no `category` field. As written, a non-blank query raises `FieldError`. The model adds a `category` field to the medication, so it describes the evidently intended behaviour, not the code as written.
- Thresholds.CheckVariant: in the model, the warning records of `views.py` and those of the `views_additions.py` variant share one log with an integer subject. `views.py` records carry the astronaut's key, and the variant's records carry the Django user's key. So the variant's daily sum also counts `views.py` records whenever the two keys happen to coincide. The two `WarningLog` models are not kept apart.
- The outer `except` of `recognize_pill` answers "Error processing image" when anything it calls raises. It is not modelled. The model lets a failing stage fall through to the next one, as the stages' own `except` clauses do. What remains for the outer handler is saving and reading the temporary image file, which is I/O.

=== FILE: bottle_reader.dfy ===
/** `PillBottleReader` (medical_inventory/views.py) after the OCR step: the
    search of the label text for known medications, and `process_bottle_image`
    turning the best match into the response. The OCR text is a parameter, and
    so is `SequenceMatcher.ratio`, a foreign similarity measure. */
module BottleReader {
  import opened Common
  import opened Inventory
  import Text
  import Ranking
  import Dosage

  /** Which rung of the search ladder found a medication. */
  datatype MatchMethod =
    | ExactName
    | ExactGeneric
    | AllWords
    | MainWord(word: string)
    | Fuzzy(similarity: real)

  /** `s.lower().strip()` */
  function Clean(s: string): string {
    Text.Strip(Text.Lower(s))
  }

  /** Shortest cleaned line the fuzzy rung compares. */
  const MinLineLength: nat := 3

  /** Lowest similarity the fuzzy rung accepts; exclusive. */
  const MinSimilarity: real := 0.7

  /** Every line of the raw text, cleaned as the fuzzy rung cleans it. */
  function CleanLines(lines: seq<string>): (r: seq<string>)
    ensures |r| == |lines|
    ensures forall i :: 0 <= i < |r| ==> r[i] == Clean(lines[i])
  {
    seq(|lines|, i requires 0 <= i < |lines| => Clean(lines[i]))
  }

  /** A cleaned line the fuzzy rung accepts for the cleaned name. */
  predicate FuzzyHit(name: string, line: string, ratio: (string, string) -> real) {
    |line| >= MinLineLength && ratio(name, line) > MinSimilarity
  }

  /** The fuzzy rung over the cleaned lines: the first line that qualifies
      decides, and its similarity is returned. */
  function FuzzyLine(name: string, cleaned: seq<string>, ratio: (string, string) -> real): (r: Option<real>)
    ensures r.Some? ==> r.value > MinSimilarity
  {
    if |cleaned| == 0 then None
    else if FuzzyHit(name, cleaned[0], ratio) then Some(ratio(name, cleaned[0]))
    else FuzzyLine(name, cleaned[1..], ratio)
  }

  /** The fuzzy rung answers with the similarity of the first qualifying line,
      and answers nothing exactly when no line qualifies. */
  lemma {:induction false} FuzzyLineFirst(name: string, cleaned: seq<string>, ratio: (string, string) -> real)
    ensures FuzzyLine(name, cleaned, ratio).Some? ==>
              exists k :: 0 <= k < |cleaned| && FuzzyHit(name, cleaned[k], ratio)
                          && FuzzyLine(name, cleaned, ratio).value == ratio(name, cleaned[k])
                          && forall j :: 0 <= j < k ==> !FuzzyHit(name, cleaned[j], ratio)
    ensures FuzzyLine(name, cleaned, ratio).None? <==>
              forall j :: 0 <= j < |cleaned| ==> !FuzzyHit(name, cleaned[j], ratio)
  {
    if |cleaned| > 0 {
      var tail := cleaned[1..];
      FuzzyLineFirst(name, tail, ratio);
      if !FuzzyHit(name, cleaned[0], ratio) {
        assert forall j :: 1 <= j < |cleaned| ==> cleaned[j] == tail[j - 1];
        if FuzzyLine(name, tail, ratio).Some? {
          var k :| 0 <= k < |tail| && FuzzyHit(name, tail[k], ratio)
                   && FuzzyLine(name, tail, ratio).value == ratio(name, tail[k])
                   && forall j :: 0 <= j < k ==> !FuzzyHit(name, tail[j], ratio);
          assert cleaned[k + 1] == tail[k];
        }
      }
    }
  }

  /** What the ladder looks at for one medication: whether the cleaned name
      and the cleaned generic name occur in the cleaned text, the name's words
      and whether all of them or the first occur, and the fuzzy rung's answer. */
  datatype Evidence = Evidence(nameIn: bool, genericIn: bool, words: seq<string>,
                               allWordsIn: bool, firstWordIn: bool, fuzzy: Option<real>)

  /** Every word occurs in the text. */
  predicate AllIn(text: string, words: seq<string>) {
    |words| == 0 || (Text.Contains(text, words[0]) && AllIn(text, words[1..]))
  }

  lemma {:induction false} AllInIff(text: string, words: seq<string>)
    ensures AllIn(text, words) <==> forall i :: 0 <= i < |words| ==> Text.Contains(text, words[i])
  {
    if |words| > 0 {
      var tail := words[1..];
      AllInIff(text, tail);
      assert forall i :: 1 <= i < |words| ==> words[i] == tail[i - 1];
    }
  }

  /** The evidence for medication `m`: `text` is the cleaned text and
      `cleaned` the cleaned lines. The generic name counts only when it is not
      blank after cleaning. */
  function Gather(text: string, cleaned: seq<string>, m: Medication, ratio: (string, string) -> real): (e: Evidence)
    ensures e.fuzzy.Some? ==> e.fuzzy.value > MinSimilarity
  {
    var name := Clean(m.name);
    var generic := Clean(m.genericName);
    var words := Text.Words(name);
    Evidence(Text.Contains(text, name),
             generic != "" && Text.Contains(text, generic),
             words,
             AllIn(text, words),
             |words| > 0 && Text.Contains(text, words[0]),
             FuzzyLine(name, cleaned, ratio))
  }

  /** The rungs in order: the name, the generic name, every word of a
      several-word name, its first word, a fuzzy line. */
  function Ladder(e: Evidence): Option<MatchMethod> {
    if e.nameIn then Some(ExactName)
    else if e.genericIn then Some(ExactGeneric)
    else if |e.words| > 1 && e.allWordsIn then Some(AllWords)
    else if |e.words| > 1 && e.firstWordIn then Some(MainWord(e.words[0]))
    else
      match e.fuzzy
      case None => None
      case Some(sim) => Some(Fuzzy(sim))
  }

  /** The ladder for one medication. */
  function HowFound(text: string, cleaned: seq<string>, m: Medication, ratio: (string, string) -> real): Option<MatchMethod> {
    Ladder(Gather(text, cleaned, m, ratio))
  }

  /** The score each rung gives. */
  function Points(mm: MatchMethod): real {
    match mm
    case ExactName => 95.0
    case ExactGeneric => 90.0
    case AllWords => 85.0
    case MainWord(_) => 75.0
    case Fuzzy(sim) => sim * 70.0
  }

  /** One entry of the search result. */
  datatype Found = Found(medication: Medication, score: real, via: MatchMethod)

  function FoundScore(f: Found): real {
    f.score
  }

  /** The loop over the medication table, `how` being the ladder: medications
      found with a positive score, in table order. */
  function Candidates(meds: seq<Medication>, how: Medication -> Option<MatchMethod>): (r: seq<Found>)
    ensures |r| <= |meds|
    ensures forall f :: f in r ==>
              f.medication in meds && how(f.medication) == Some(f.via)
              && f.score == Points(f.via) && f.score > 0.0
    ensures forall m :: m in meds && how(m).Some? && Points(how(m).value) > 0.0 ==>
              exists f :: f in r && f.medication == m
  {
    if |meds| == 0 then []
    else
      var rest := Candidates(meds[1..], how);
      var m := meds[0];
      assert forall m' :: m' in meds[1..] ==> m' in meds;
      assert forall m' :: m' in meds ==> m' == m || m' in meds[1..];
      if how(m).Some? && Points(how(m).value) > 0.0 then
        var f := Found(m, Points(how(m).value), how(m).value);
        assert f in [f] + rest;
        [f] + rest
      else rest
  }

  /** The candidates of a concatenation are those of each part, in table
      order. */
  lemma {:induction false} CandidatesAppend(a: seq<Medication>, b: seq<Medication>,
                                            how: Medication -> Option<MatchMethod>)
    ensures Candidates(a + b, how) == Candidates(a, how) + Candidates(b, how)
  {
    if |a| > 0 {
      assert (a + b)[1..] == a[1..] + b;
      CandidatesAppend(a[1..], b, how);
    } else {
      assert a + b == b;
    }
  }

  /** A single medication is listed exactly when the ladder finds it with a
      positive score, with that rung's method and points. */
  lemma CandidatesOne(m: Medication, how: Medication -> Option<MatchMethod>)
    ensures Candidates([m], how)
            == if how(m).Some? && Points(how(m).value) > 0.0 then [Found(m, Points(how(m).value), how(m).value)] else []
  {
    assert [m][1..] == [];
  }

  /** The ladder applied to the text as `search_for_medications_in_text`
      prepares it: the whole text lower-cased with its whitespace collapsed,
      and its lines cleaned one by one. */
  function Assessor(text: string, ratio: (string, string) -> real): Medication -> Option<MatchMethod> {
    var clean := Text.Collapse(Text.Lower(text));
    var cleaned := CleanLines(Text.SplitOn(text, '\n'));
    m => HowFound(clean, cleaned, m, ratio)
  }

  /** `search_for_medications_in_text`: empty text finds nothing; otherwise
      the candidates, best first, ties in table order. */
  function Search(text: string, meds: seq<Medication>, ratio: (string, string) -> real): (r: seq<Found>)
    ensures text == "" ==> r == []
    ensures text != "" ==>
              multiset(r) == multiset(Candidates(meds, Assessor(text, ratio)))
    ensures Ranking.SortedDesc(r, FoundScore)
  {
    if text == "" then []
    else Ranking.SortDesc(Candidates(meds, Assessor(text, ratio)), FoundScore)
  }

  /** One entry of `all_matches`. */
  datatype Summary = Summary(name: string, score: real, via: MatchMethod)

  /** What `process_bottle_image` answers. */
  datatype BottleResult =
    | Unreadable
    | NoMatch(rawText: string)
    | Read(rawText: string, medication: Medication, dosage: string, confidence: real,
           via: MatchMethod, allMatches: seq<Summary>, location: string)

  /** Shown when the matched medication has no container location. */
  const NoLocation: string := "Location not set in system"

  function Summarize(fs: seq<Found>): (r: seq<Summary>)
    ensures |r| == |fs|
    ensures forall i :: 0 <= i < |r| ==>
              r[i] == Summary(fs[i].medication.name, Round1(fs[i].score), fs[i].via)
  {
    seq(|fs|, i requires 0 <= i < |fs| => Summary(fs[i].medication.name, Round1(fs[i].score), fs[i].via))
  }

  /** `matches[:3]` as the reading lists it: the first three matches, or all
      of them when fewer, each with its name, its score rounded to one
      decimal and its method. */
  predicate ListsTop3(all: seq<Summary>, matches: seq<Found>) {
    && |all| == Ranking.Min(3, |matches|)
    && forall i :: 0 <= i < |all| ==>
         all[i] == Summary(matches[i].medication.name, Round1(matches[i].score), matches[i].via)
  }

  /** The successful answer for a non-empty, best-first match list: the first
      match is the medication, the label's dosage wins over the stored one,
      and at most three matches are listed. */
  function ReadBest(raw: string, matches: seq<Found>): (r: BottleResult)
    requires |matches| > 0
    ensures r.Read? && r.rawText == raw && r.location != ""
    ensures r.medication == matches[0].medication && r.confidence == Round1(matches[0].score)
    ensures r.via == matches[0].via
    ensures r.location == if r.medication.containerLocation != "" then r.medication.containerLocation
                          else NoLocation
    ensures ListsTop3(r.allMatches, matches)
    ensures r.dosage == match Dosage.ExtractDosage(raw)
                        case Some(d) => d
                        case None => r.medication.dosage
  {
    var best := matches[0];
    var m := best.medication;
    var dosage := match Dosage.ExtractDosage(raw)
                  case Some(d) => d
                  case None => m.dosage;
    var top := Summarize(matches[..Ranking.Min(3, |matches|)]);
    assert NoLocation[0] == 'L';
    Read(raw, m, dosage, Round1(best.score), best.via, top,
         if m.containerLocation != "" then m.containerLocation else NoLocation)
  }

  /** `process_bottle_image` after OCR produced `raw`. */
  function ProcessBottle(raw: string, meds: seq<Medication>, ratio: (string, string) -> real): (r: BottleResult)
    ensures r == Unreadable <==> |raw| < 3
    ensures r.NoMatch? ==> r.rawText == raw && Search(raw, meds, ratio) == []
    ensures r.Read? ==> r.rawText == raw && r.location != ""
    ensures r.Read? ==> r.location == if r.medication.containerLocation != "" then r.medication.containerLocation
                                      else NoLocation
    ensures r.Read? ==> var matches := Search(raw, meds, ratio);
              && |matches| > 0 && r.medication == matches[0].medication
              && r.confidence == Round1(matches[0].score) && r.via == matches[0].via
              && ListsTop3(r.allMatches, matches)
    ensures r.Read? ==> r.dosage == match Dosage.ExtractDosage(raw)
                                    case Some(d) => d
                                    case None => r.medication.dosage
  {
    if |raw| < 3 then Unreadable
    else
      var matches := Search(raw, meds, ratio);
      if |matches| == 0 then NoMatch(raw) else ReadBest(raw, matches)
  }

  // ---------------------------------------------------------------------
  // Properties of the ladder
  // ---------------------------------------------------------------------

  /** Every rung scores above 49. */
  lemma LadderScore(e: Evidence)
    requires e.fuzzy.Some? ==> e.fuzzy.value > MinSimilarity
    ensures Ladder(e).Some? ==> Points(Ladder(e).value) > 49.0
  {
  }

  /** Every rung scores above 49, so the `score > 0` filter only drops
      medications no rung found. */
  lemma FoundScoresPositive(text: string, cleaned: seq<string>, m: Medication, ratio: (string, string) -> real)
    ensures HowFound(text, cleaned, m, ratio).Some? ==> Points(HowFound(text, cleaned, m, ratio).value) > 49.0
  {
    LadderScore(Gather(text, cleaned, m, ratio));
  }

  /** With a similarity bounded by 1, a fuzzy score is at most 70, below the
      75 of the lowest word rung. */
  lemma LadderFuzzyLast(e: Evidence, e': Evidence)
    requires e.fuzzy.Some? ==> e.fuzzy.value <= 1.0
    requires Ladder(e).Some? && Ladder(e).value.Fuzzy?
    requires Ladder(e').Some? && !Ladder(e').value.Fuzzy?
    ensures Points(Ladder(e).value) <= 70.0
    ensures Points(Ladder(e).value) < Points(Ladder(e').value)
  {
  }

  /** With a similarity measure bounded by 1, a fuzzy match scores at most 70
      and so ranks below every exact or word match. */
  lemma FuzzyRanksLast(text: string, cleaned: seq<string>, m: Medication, m': Medication,
                       ratio: (string, string) -> real)
    requires forall a, b :: ratio(a, b) <= 1.0
    requires HowFound(text, cleaned, m, ratio).Some? && HowFound(text, cleaned, m, ratio).value.Fuzzy?
    requires HowFound(text, cleaned, m', ratio).Some? && !HowFound(text, cleaned, m', ratio).value.Fuzzy?
    ensures 49.0 < Points(HowFound(text, cleaned, m, ratio).value) <= 70.0
    ensures Points(HowFound(text, cleaned, m, ratio).value) < Points(HowFound(text, cleaned, m', ratio).value)
  {
    var e := Gather(text, cleaned, m, ratio);
    var name := Clean(m.name);
    FuzzyLineFirst(name, cleaned, ratio);
    var k :| 0 <= k < |cleaned| && FuzzyHit(name, cleaned[k], ratio)
             && FuzzyLine(name, cleaned, ratio).value == ratio(name, cleaned[k]);
    assert ratio(name, cleaned[k]) <= 1.0;
    LadderScore(e);
    LadderFuzzyLast(e, Gather(text, cleaned, m', ratio));
  }

  /** A name of several words all present in the text scores at least 85. */
  lemma LadderAllWords(e: Evidence)
    requires |e.words| > 1 && e.allWordsIn
    ensures Ladder(e).Some? && Points(Ladder(e).value) >= 85.0
  {
  }

  /** A name of several words all present in the text scores at least 85,
      wherever the words appear. */
  lemma AllWordsScoreAtLeast85(text: string, cleaned: seq<string>, m: Medication, ratio: (string, string) -> real)
    requires |Text.Words(Clean(m.name))| > 1
    requires forall i :: 0 <= i < |Text.Words(Clean(m.name))| ==> Text.Contains(text, Text.Words(Clean(m.name))[i])
    ensures HowFound(text, cleaned, m, ratio).Some? && Points(HowFound(text, cleaned, m, ratio).value) >= 85.0
  {
    AllInIff(text, Text.Words(Clean(m.name)));
    LadderAllWords(Gather(text, cleaned, m, ratio));
  }

  /** Later rungs are reached only when the earlier ones failed. */
  lemma LadderRungs(e: Evidence)
    ensures Ladder(e) == Some(ExactName) <==> e.nameIn
    ensures Ladder(e) == Some(ExactGeneric) <==> !e.nameIn && e.genericIn
    ensures Ladder(e) == Some(AllWords) <==> !e.nameIn && !e.genericIn && |e.words| > 1 && e.allWordsIn
    ensures Ladder(e).Some? && Ladder(e).value.MainWord? <==>
              !e.nameIn && !e.genericIn && |e.words| > 1 && !e.allWordsIn && e.firstWordIn
    ensures Ladder(e).Some? && Ladder(e).value.MainWord? ==> Ladder(e).value.word == e.words[0]
    ensures Ladder(e).Some? && Ladder(e).value.Fuzzy? <==>
              !e.nameIn && !e.genericIn && !(|e.words| > 1 && (e.allWordsIn || e.firstWordIn)) && e.fuzzy.Some?
    ensures Ladder(e).Some? && Ladder(e).value.Fuzzy? ==> Ladder(e).value.similarity == e.fuzzy.value
  {
  }

  /** The ladder in the medication's own terms: a word rung never fires for a
      single-word name, the main word is the name's first word, and the fuzzy
      rung fires only when the name is not in the text and a line qualifies. */
  lemma LadderOrder(text: string, cleaned: seq<string>, m: Medication, ratio: (string, string) -> real)
    ensures var how := HowFound(text, cleaned, m, ratio);
            how.Some? && (how.value.AllWords? || how.value.MainWord?) ==>
              |Text.Words(Clean(m.name))| > 1 && !Text.Contains(text, Clean(m.name))
    ensures var how := HowFound(text, cleaned, m, ratio);
            how.Some? && how.value.MainWord? ==> how.value.word == Text.Words(Clean(m.name))[0]
    ensures var how := HowFound(text, cleaned, m, ratio);
            how.Some? && how.value.Fuzzy? ==>
              !Text.Contains(text, Clean(m.name))
              && exists k :: 0 <= k < |cleaned| && FuzzyHit(Clean(m.name), cleaned[k], ratio)
                             && how.value.similarity == ratio(Clean(m.name), cleaned[k])
  {
    LadderRungs(Gather(text, cleaned, m, ratio));
    FuzzyLineFirst(Clean(m.name), cleaned, ratio);
  }

  /** A blank name is contained in every text: such a medication is found by
      the first rung whatever the label says. */
  lemma BlankNameAlwaysFound(text: string, cleaned: seq<string>, m: Medication, ratio: (string, string) -> real)
    requires forall i :: 0 <= i < |m.name| ==> Text.IsSpace(m.name[i])
    ensures HowFound(text, cleaned, m, ratio) == Some(ExactName)
  {
    var low := Text.Lower(m.name);
    forall i | 0 <= i < |low|
      ensures Text.IsSpace(low[i])
    {
      assert low[i] == Text.LowerChar(m.name[i]);
    }
    assert Clean(m.name) == "";
    assert text[..0] == "";
    LadderRungs(Gather(text, cleaned, m, ratio));
  }

  // ---------------------------------------------------------------------
  // Properties of the search and of the response
  // ---------------------------------------------------------------------

  /** The search reports exactly the medications some rung finds, each scored
      by its rung. */
  lemma SearchMembers(text: string, meds: seq<Medication>, ratio: (string, string) -> real)
    requires text != ""
    ensures forall m :: m in meds ==>
              ((exists f :: f in Search(text, meds, ratio) && f.medication == m)
               <==> Assessor(text, ratio)(m).Some?)
    ensures forall f :: f in Search(text, meds, ratio) ==>
              f.medication in meds && Assessor(text, ratio)(f.medication) == Some(f.via)
              && f.score == Points(f.via)
  {
    var how := Assessor(text, ratio);
    var c := Candidates(meds, how);
    var r := Search(text, meds, ratio);
    forall f | f in r
      ensures f in c
    {
      assert f in multiset(r);
    }
    forall m | m in meds && how(m).Some?
      ensures exists f :: f in r && f.medication == m
    {
      FoundScoresPositive(Text.Collapse(Text.Lower(text)), CleanLines(Text.SplitOn(text, '\n')), m, ratio);
      var f :| f in c && f.medication == m;
      assert f in multiset(c);
    }
  }

  /** The reported medication has the highest score among all medications
      found, and is reported with that score rounded to one decimal. */
  lemma BestMatchIsTop(raw: string, meds: seq<Medication>, ratio: (string, string) -> real)
    requires ProcessBottle(raw, meds, ratio).Read?
    ensures var r := ProcessBottle(raw, meds, ratio);
            var s := Search(raw, meds, ratio);
            && s[0].medication == r.medication && r.confidence == Round1(s[0].score)
            && forall f :: f in s ==> f.score <= s[0].score
  {
    HeadIsTop(Search(raw, meds, ratio));
  }

  lemma HeadIsTop(s: seq<Found>)
    requires |s| > 0 && Ranking.SortedDesc(s, FoundScore)
    ensures forall f :: f in s ==> f.score <= s[0].score
  {
    forall f | f in s
      ensures f.score <= s[0].score
    {
      var i :| 0 <= i < |s| && s[i] == f;
      if i > 0 {
        assert FoundScore(s[0]) >= FoundScore(s[i]);
      }
    }
  }

  /** No match is reported exactly when the label is readable and no rung
      finds any medication. */
  lemma NoMatchIff(raw: string, meds: seq<Medication>, ratio: (string, string) -> real)
    ensures ProcessBottle(raw, meds, ratio).NoMatch? <==>
              |raw| >= 3 && forall m :: m in meds ==> Assessor(raw, ratio)(m).None?
  {
    if |raw| >= 3 {
      SearchMembers(raw, meds, ratio);
      var s := Search(raw, meds, ratio);
      if |s| > 0 {
        assert s[0] in s;
      }
    }
  }
}

=== FILE: checkout.dfy ===
/** The dispensing transitions: the live `checkout_medication` view of
    medical_inventory/views.py (repeated in enhanced_views.py) and the
    `dispense_medication` view of views_additions.py, as pure functions on a
    snapshot of the store. */
module Checkout {
  import opened Common
  import opened Inventory
  import opened Thresholds
  import Text

  /** What the two views read and write: enrolled astronauts, medications by
      primary key, the checkout table, the warning table, and the key the
      database hands to the next checkout row. */
  datatype Store = Store(
    astronauts: set<int>,
    meds: map<int, Medication>,
    checkouts: seq<CheckoutRecord>,
    warnings: seq<WarningRecord>,
    nextPk: int)

  /** Every medication is stored under its own primary key. */
  ghost predicate WellKeyed(s: Store) {
    forall id :: id in s.meds ==> s.meds[id].id == id
  }

  ghost predicate StockNonNegative(s: Store) {
    forall id :: id in s.meds ==> s.meds[id].current >= 0
  }

  /** One entry of the request's `medications` list. */
  datatype Item = Item(medication: int, quantity: int, isPrescription: bool)

  /** One entry of the response's `warnings` list. */
  datatype Triggered = Triggered(medicationName: string, severity: Option<Severity>)

  /** Why the item loop stopped early. */
  datatype Stop = UnknownMedication(id: int) | InsufficientStock(name: string)

  datatype RunResult = RunResult(store: Store, processed: nat, triggered: seq<Triggered>, stop: Option<Stop>)

  /** Total quantity of today's checkouts of `medication` by `astronaut`
      (`MedicationCheckout.objects.filter(...).aggregate(Sum('quantity'))`). */
  function CheckedOutToday(log: seq<CheckoutRecord>, astronaut: int, medication: int, dayStart: int): int {
    if |log| == 0 then 0
    else
      var last := log[|log| - 1];
      CheckedOutToday(log[..|log| - 1], astronaut, medication, dayStart)
      + (if last.astronaut == astronaut && last.medication == medication && last.time >= dayStart
         then last.quantity else 0)
  }

  /** Sum of the quantities a list of items asks of one medication. */
  function QuantityFor(items: seq<Item>, medication: int): int {
    if |items| == 0 then 0
    else (if items[0].medication == medication then items[0].quantity else 0) + QuantityFor(items[1..], medication)
  }

  /** Taking one more item of the request adds what that item asks. */
  lemma QuantityForPrefix(items: seq<Item>, n: nat)
    requires n < |items|
    ensures forall id :: QuantityFor(items[..n + 1], id)
              == (if items[0].medication == id then items[0].quantity else 0) + QuantityFor(items[1..][..n], id)
  {
    assert items[..n + 1][1..] == items[1..][..n];
  }

  /** Stock on hand by medication key. */
  function StockOf(meds: map<int, Medication>): (r: map<int, int>)
    ensures r.Keys == meds.Keys
    ensures forall id :: id in meds ==> r[id] == meds[id].current
  {
    map id | id in meds :: meds[id].current
  }

  /** Item `k` names a known medication and asks for no more than what the
      earlier items of the request left of it. Nothing here looks at
      thresholds. */
  predicate ItemFits(stock: map<int, int>, items: seq<Item>, k: nat)
    requires k < |items|
  {
    && items[k].medication in stock
    && items[k].quantity <= stock[items[k].medication] - QuantityFor(items[..k], items[k].medication)
  }

  /** Reference count of the items served: the length of the longest prefix
      whose items each fit what the items before them left, computed on stock
      numbers alone. */
  function Accepted(stock: map<int, int>, items: seq<Item>): (n: nat)
    ensures n <= |items|
  {
    if |items| == 0 then 0
    else
      var m, q := items[0].medication, items[0].quantity;
      if m !in stock || q > stock[m] then 0
      else 1 + Accepted(stock[m := stock[m] - q], items[1..])
  }

  /** One step of the reference count. */
  lemma AcceptedStep(stock: map<int, int>, items: seq<Item>)
    ensures |items| > 0 && items[0].medication in stock && items[0].quantity <= stock[items[0].medication] ==>
              var m := items[0].medication;
              Accepted(stock, items) == 1 + Accepted(stock[m := stock[m] - items[0].quantity], items[1..])
    ensures !(|items| > 0 && items[0].medication in stock && items[0].quantity <= stock[items[0].medication]) ==>
              Accepted(stock, items) == 0
  {
  }

  /** Once the first item has been taken from the stock, item `k` of the rest
      fits the new stock exactly when item `k + 1` fitted the old one. */
  lemma ShiftFit(stock: map<int, int>, items: seq<Item>, k: nat)
    requires k + 1 < |items| && items[0].medication in stock
    ensures var m := items[0].medication;
            ItemFits(stock[m := stock[m] - items[0].quantity], items[1..], k) <==> ItemFits(stock, items, k + 1)
  {
    assert items[1..][k] == items[k + 1];
    QuantityForPrefix(items, k);
  }

  /** The reference count stops exactly at the first item that does not fit. */
  lemma {:induction false} AcceptedIsFirstMisfit(stock: map<int, int>, items: seq<Item>)
    ensures var n := Accepted(stock, items);
            && (forall k :: 0 <= k < n ==> ItemFits(stock, items, k))
            && (n < |items| ==> !ItemFits(stock, items, n))
    decreases |items|
  {
    if |items| > 0 {
      assert items[..0] == [];
      var m, q := items[0].medication, items[0].quantity;
      if m in stock && q <= stock[m] {
        var stock1 := stock[m := stock[m] - q];
        AcceptedIsFirstMisfit(stock1, items[1..]);
        var n1 := Accepted(stock1, items[1..]);
        forall k | 0 < k < n1 + 1
          ensures ItemFits(stock, items, k)
        {
          ShiftFit(stock, items, k - 1);
        }
        if n1 + 1 < |items| {
          ShiftFit(stock, items, n1);
        }
      }
    }
  }

  /** Accepting one item: evaluate the thresholds against today's earlier
      checkouts, write the warning records, then create and save the checkout
      row, which lowers the stock and recomputes the status. */
  function Commit(s: Store, astronaut: int, item: Item, now: int): (r: (Store, Option<Triggered>))
    requires WellKeyed(s)
    requires item.medication in s.meds && item.quantity <= s.meds[item.medication].current
    ensures WellKeyed(r.0)
    ensures r.0.meds.Keys == s.meds.Keys && r.0.astronauts == s.astronauts
    ensures r.0.meds[item.medication].current == s.meds[item.medication].current - item.quantity
    ensures var served := r.0.meds[item.medication];
            && served.status == StatusFor(served.current, served.minimum)
            && served.(current := s.meds[item.medication].current, status := s.meds[item.medication].status)
               == s.meds[item.medication]
    ensures forall id :: id in s.meds && id != item.medication ==> r.0.meds[id] == s.meds[id]
    ensures r.0.checkouts == s.checkouts
              + [CheckoutRecord(Some(s.nextPk), astronaut, item.medication, item.quantity, now, item.isPrescription)]
    ensures r.0.nextPk == s.nextPk + 1
    ensures |s.warnings| <= |r.0.warnings| <= |s.warnings| + 2 && r.0.warnings[..|s.warnings|] == s.warnings
    ensures r.1.Some? <==> |r.0.warnings| > |s.warnings|
    ensures r.1.Some? ==> r.1.value.medicationName == s.meds[item.medication].name
  {
    var med := s.meds[item.medication];
    var prior := CheckedOutToday(s.checkouts, astronaut, med.id, DayStart(now));
    var ev := Evaluate(med.threshold, item.quantity, prior);
    var warnings := s.warnings + Stamp(ev.warnings, astronaut, med.id, item.quantity, now);
    var row := CheckoutRecord(None, astronaut, med.id, item.quantity, now, item.isPrescription);
    var (saved, med') := SaveCheckout(row, med, s.nextPk);
    assert warnings[..|s.warnings|] == s.warnings;
    (Store(s.astronauts, s.meds[med.id := med'], s.checkouts + [saved], warnings, s.nextPk + 1),
     if ev.created then Some(Triggered(med.name, ev.severity)) else None)
  }

  /** The `for med_data in medications` loop: items are handled in order; an
      unknown medication or a quantity above the current stock stops the loop,
      and what the earlier items committed stays committed. */
  function Run(s: Store, astronaut: int, items: seq<Item>, now: int): (r: RunResult)
    requires WellKeyed(s)
    ensures WellKeyed(r.store)
    ensures r.processed <= |items|
    ensures r.stop.None? <==> r.processed == |items|
    ensures r.store.meds.Keys == s.meds.Keys && r.store.astronauts == s.astronauts
    ensures |r.store.checkouts| == |s.checkouts| + r.processed
    ensures StockNonNegative(s) ==> StockNonNegative(r.store)
    decreases |items|, 1
  {
    if |items| == 0 then RunResult(s, 0, [], None)
    else
      var item := items[0];
      if item.medication !in s.meds then RunResult(s, 0, [], Some(UnknownMedication(item.medication)))
      else if item.quantity > s.meds[item.medication].current then
        RunResult(s, 0, [], Some(InsufficientStock(s.meds[item.medication].name)))
      else Serve(s, astronaut, items, now)
  }

  /** The loop body for an item that can be served: commit it, then carry on
      with the rest of the request. */
  function Serve(s: Store, astronaut: int, items: seq<Item>, now: int): (r: RunResult)
    requires WellKeyed(s)
    requires |items| > 0 && items[0].medication in s.meds
    requires items[0].quantity <= s.meds[items[0].medication].current
    ensures WellKeyed(r.store)
    ensures 1 <= r.processed <= |items|
    ensures r.stop.None? <==> r.processed == |items|
    ensures r.store.meds.Keys == s.meds.Keys && r.store.astronauts == s.astronauts
    ensures |r.store.checkouts| == |s.checkouts| + r.processed
    ensures StockNonNegative(s) ==> StockNonNegative(r.store)
    decreases |items|, 0
  {
    var step := Commit(s, astronaut, items[0], now);
    var s1, t := step.0, step.1;
    var rest := Run(s1, astronaut, items[1..], now);
    RunResult(rest.store, rest.processed + 1, (if t.Some? then [t.value] else []) + rest.triggered, rest.stop)
  }

  /** Every medication ends the loop with its stock lowered by exactly what
      the accepted items asked of it. */
  lemma {:induction false} RunConservesStock(s: Store, astronaut: int, items: seq<Item>, now: int, id: int)
    requires WellKeyed(s) && id in s.meds
    ensures var r := Run(s, astronaut, items, now);
            r.store.meds[id].current == s.meds[id].current - QuantityFor(items[..r.processed], id)
    decreases |items|, 1
  {
    if |items| > 0 && items[0].medication in s.meds && items[0].quantity <= s.meds[items[0].medication].current {
      ServedConservesStock(s, astronaut, items, now, id);
    } else {
      assert items[..0] == [];
    }
  }

  lemma {:induction false} ServedConservesStock(s: Store, astronaut: int, items: seq<Item>, now: int, id: int)
    requires WellKeyed(s) && id in s.meds
    requires |items| > 0 && items[0].medication in s.meds
    requires items[0].quantity <= s.meds[items[0].medication].current
    ensures var r := Run(s, astronaut, items, now);
            r.store.meds[id].current == s.meds[id].current - QuantityFor(items[..r.processed], id)
    decreases |items|, 0
  {
    var s1, _ := ServeStep(s, astronaut, items, now);
    RunConservesStock(s1, astronaut, items[1..], now, id);
    assert s1.meds[id].current == s.meds[id].current - (if id == items[0].medication then items[0].quantity else 0);
    ConservesClose(Run(s, astronaut, items, now), Run(s1, astronaut, items[1..], now), s, s1, items, id);
  }

  lemma ConservesClose(r: RunResult, rest: RunResult, s: Store, s1: Store, items: seq<Item>, id: int)
    requires rest.processed < |items| && id in s.meds && id in s1.meds && id in rest.store.meds
    requires r.store == rest.store && r.processed == rest.processed + 1
    requires s1.meds[id].current == s.meds[id].current - (if id == items[0].medication then items[0].quantity else 0)
    requires rest.store.meds[id].current == s1.meds[id].current - QuantityFor(items[1..][..rest.processed], id)
    ensures r.store.meds[id].current == s.meds[id].current - QuantityFor(items[..r.processed], id)
  {
    QuantityForPrefix(items, rest.processed);
  }

  /** The loop stops on the first item it cannot serve, and says why: an
      unknown medication, or one whose stock (after the earlier items) is
      below the quantity asked. */
  lemma {:induction false} RunStopReason(s: Store, astronaut: int, items: seq<Item>, now: int)
    requires WellKeyed(s)
    ensures var r := Run(s, astronaut, items, now);
            r.stop.Some? ==> match r.stop.value
              case UnknownMedication(id) => id == items[r.processed].medication && id !in r.store.meds
              case InsufficientStock(name) =>
                items[r.processed].medication in r.store.meds
                && items[r.processed].quantity > r.store.meds[items[r.processed].medication].current
                && name == r.store.meds[items[r.processed].medication].name
    decreases |items|, 1
  {
    if |items| > 0 && items[0].medication in s.meds && items[0].quantity <= s.meds[items[0].medication].current {
      ServedStopReason(s, astronaut, items, now);
    }
  }

  lemma {:induction false} ServedStopReason(s: Store, astronaut: int, items: seq<Item>, now: int)
    requires WellKeyed(s)
    requires |items| > 0 && items[0].medication in s.meds
    requires items[0].quantity <= s.meds[items[0].medication].current
    ensures var r := Run(s, astronaut, items, now);
            r.stop.Some? ==> match r.stop.value
              case UnknownMedication(id) => id == items[r.processed].medication && id !in r.store.meds
              case InsufficientStock(name) =>
                items[r.processed].medication in r.store.meds
                && items[r.processed].quantity > r.store.meds[items[r.processed].medication].current
                && name == r.store.meds[items[r.processed].medication].name
    decreases |items|, 0
  {
    var s1, _ := ServeStep(s, astronaut, items, now);
    RunStopReason(s1, astronaut, items[1..], now);
    var rest := Run(s1, astronaut, items[1..], now);
    if rest.stop.Some? {
      assert items[1..][rest.processed] == items[rest.processed + 1];
    }
  }

  /** The commit case of `Run`, stated without `Commit` so that the lemmas
      below reason about the store after the first item and never unfold the
      threshold evaluation: `s1` is the store after serving `items[0]` and `t`
      the response warning it produced. */
  lemma ServeStep(s: Store, astronaut: int, items: seq<Item>, now: int) returns (s1: Store, t: Option<Triggered>)
    requires WellKeyed(s)
    requires |items| > 0 && items[0].medication in s.meds
    requires items[0].quantity <= s.meds[items[0].medication].current
    ensures WellKeyed(s1)
    ensures s1.meds.Keys == s.meds.Keys && s1.astronauts == s.astronauts
    ensures s1.meds[items[0].medication].current == s.meds[items[0].medication].current - items[0].quantity
    ensures forall id :: id in s.meds && id != items[0].medication ==> s1.meds[id] == s.meds[id]
    ensures s1.checkouts == s.checkouts
              + [CheckoutRecord(Some(s.nextPk), astronaut, items[0].medication, items[0].quantity, now, items[0].isPrescription)]
    ensures s1.nextPk == s.nextPk + 1
    ensures |s.warnings| <= |s1.warnings| && s1.warnings[..|s.warnings|] == s.warnings
    ensures TakesFirst(StockOf(s.meds), StockOf(s1.meds), items)
    ensures var rest := Run(s1, astronaut, items[1..], now);
            Run(s, astronaut, items, now)
            == RunResult(rest.store, rest.processed + 1, (if t.Some? then [t.value] else []) + rest.triggered, rest.stop)
  {
    var step := Commit(s, astronaut, items[0], now);
    s1, t := step.0, step.1;
    StockAfterTake(s.meds, s1.meds, items[0].medication, items[0].quantity);
    assert Run(s, astronaut, items, now) == Serve(s, astronaut, items, now);
  }

  /** The checkout rows a list of accepted items becomes, keys counting up
      from `pk`. */
  function Rows(items: seq<Item>, astronaut: int, now: int, pk: int): (r: seq<CheckoutRecord>)
    ensures |r| == |items|
  {
    if |items| == 0 then []
    else [CheckoutRecord(Some(pk), astronaut, items[0].medication, items[0].quantity, now, items[0].isPrescription)]
         + Rows(items[1..], astronaut, now, pk + 1)
  }

  /** Row `i` records item `i` under key `pk + i`. */
  lemma {:induction false} RowsContent(items: seq<Item>, astronaut: int, now: int, pk: int)
    ensures forall i :: 0 <= i < |items| ==>
              Rows(items, astronaut, now, pk)[i]
              == CheckoutRecord(Some(pk + i), astronaut, items[i].medication, items[i].quantity, now, items[i].isPrescription)
    decreases |items|
  {
    if |items| > 0 {
      RowsContent(items[1..], astronaut, now, pk + 1);
    }
  }

  /** When the first item is not served, nothing changes. */
  lemma RunIdle(s: Store, astronaut: int, items: seq<Item>, now: int)
    requires WellKeyed(s)
    requires |items| == 0 || items[0].medication !in s.meds || items[0].quantity > s.meds[items[0].medication].current
    ensures Run(s, astronaut, items, now).store == s && Run(s, astronaut, items, now).processed == 0
  {
  }

  /** Appending the first accepted item's row and then the rows of the rest
      is appending the rows of both. */
  lemma RowsClose(r: RunResult, rest: RunResult, s: Store, s1: Store, items: seq<Item>, astronaut: int, now: int)
    requires rest.processed < |items|
    requires r.store == rest.store && r.processed == rest.processed + 1
    requires s1.nextPk == s.nextPk + 1
    requires s1.checkouts == s.checkouts
               + [CheckoutRecord(Some(s.nextPk), astronaut, items[0].medication, items[0].quantity, now, items[0].isPrescription)]
    requires rest.store.checkouts == s1.checkouts + Rows(items[1..][..rest.processed], astronaut, now, s1.nextPk)
    ensures r.store.checkouts == s.checkouts + Rows(items[..r.processed], astronaut, now, s.nextPk)
  {
    var p := rest.processed;
    RowsPrefixStep(items, p, astronaut, now, s.nextPk);
    var row := CheckoutRecord(Some(s.nextPk), astronaut, items[0].medication, items[0].quantity, now, items[0].isPrescription);
    var tail := Rows(items[1..][..p], astronaut, now, s1.nextPk);
    assert s.checkouts + ([row] + tail) == s.checkouts + [row] + tail;
  }

  lemma RowsPrefixStep(items: seq<Item>, p: nat, astronaut: int, now: int, pk: int)
    requires p < |items|
    ensures Rows(items[..p + 1], astronaut, now, pk)
            == [CheckoutRecord(Some(pk), astronaut, items[0].medication, items[0].quantity, now, items[0].isPrescription)]
               + Rows(items[1..][..p], astronaut, now, pk + 1)
  {
    assert items[..p + 1][1..] == items[1..][..p];
  }

  /** The checkout table after the loop is the old table followed by one row
      per accepted item, in request order: same astronaut, medication,
      quantity and prescription flag, stamped now, with consecutive keys. */
  lemma {:induction false} RunRows(s: Store, astronaut: int, items: seq<Item>, now: int)
    requires WellKeyed(s)
    ensures var r := Run(s, astronaut, items, now);
            r.store.checkouts == s.checkouts + Rows(items[..r.processed], astronaut, now, s.nextPk)
    decreases |items|, 1
  {
    if |items| > 0 && items[0].medication in s.meds && items[0].quantity <= s.meds[items[0].medication].current {
      ServedRows(s, astronaut, items, now);
    } else {
      RunIdle(s, astronaut, items, now);
      assert items[..0] == [];
    }
  }

  lemma {:induction false} ServedRows(s: Store, astronaut: int, items: seq<Item>, now: int)
    requires WellKeyed(s)
    requires |items| > 0 && items[0].medication in s.meds
    requires items[0].quantity <= s.meds[items[0].medication].current
    ensures var r := Run(s, astronaut, items, now);
            r.store.checkouts == s.checkouts + Rows(items[..r.processed], astronaut, now, s.nextPk)
    decreases |items|, 0
  {
    var s1, _ := ServeStep(s, astronaut, items, now);
    RunRows(s1, astronaut, items[1..], now);
    RowsClose(Run(s, astronaut, items, now), Run(s1, astronaut, items[1..], now), s, s1, items, astronaut, now);
  }

  /** The warning table only grows, and at most one response warning is
      reported per accepted item. */
  lemma {:induction false} RunKeepsWarnings(s: Store, astronaut: int, items: seq<Item>, now: int)
    requires WellKeyed(s)
    ensures var r := Run(s, astronaut, items, now);
            && |r.store.warnings| >= |s.warnings| && r.store.warnings[..|s.warnings|] == s.warnings
            && |r.triggered| <= r.processed
    decreases |items|, 1
  {
    if |items| > 0 && items[0].medication in s.meds && items[0].quantity <= s.meds[items[0].medication].current {
      ServedKeepsWarnings(s, astronaut, items, now);
    }
  }

  lemma {:induction false} ServedKeepsWarnings(s: Store, astronaut: int, items: seq<Item>, now: int)
    requires WellKeyed(s)
    requires |items| > 0 && items[0].medication in s.meds
    requires items[0].quantity <= s.meds[items[0].medication].current
    ensures var r := Run(s, astronaut, items, now);
            && |r.store.warnings| >= |s.warnings| && r.store.warnings[..|s.warnings|] == s.warnings
            && |r.triggered| <= r.processed
    decreases |items|, 0
  {
    var s1, _ := ServeStep(s, astronaut, items, now);
    RunKeepsWarnings(s1, astronaut, items[1..], now);
    KeepsWarningsClose(Run(s, astronaut, items, now), Run(s1, astronaut, items[1..], now), s, s1);
  }

  lemma KeepsWarningsClose(r: RunResult, rest: RunResult, s: Store, s1: Store)
    requires r.store == rest.store && r.processed == rest.processed + 1
    requires |r.triggered| <= |rest.triggered| + 1
    requires |s.warnings| <= |s1.warnings| && s1.warnings[..|s.warnings|] == s.warnings
    requires |s1.warnings| <= |rest.store.warnings| && rest.store.warnings[..|s1.warnings|] == s1.warnings
    requires |rest.triggered| <= rest.processed
    ensures |r.store.warnings| >= |s.warnings| && r.store.warnings[..|s.warnings|] == s.warnings
    ensures |r.triggered| <= r.processed
  {
    assert rest.store.warnings[..|s.warnings|] == rest.store.warnings[..|s1.warnings|][..|s.warnings|];
  }

  /** A commit's effect on the stock numbers: one entry lowered. */
  lemma StockAfterTake(before: map<int, Medication>, after: map<int, Medication>, m: int, q: int)
    requires m in before && after.Keys == before.Keys
    requires after[m].current == before[m].current - q
    requires forall id :: id in before && id != m ==> after[id] == before[id]
    ensures StockOf(after) == StockOf(before)[m := StockOf(before)[m] - q]
  {
  }

  /** The loop serves exactly the items the stock-only reference count
      accepts: a threshold warning never stops a checkout. */
  lemma {:induction false} RunProcessesAccepted(s: Store, astronaut: int, items: seq<Item>, now: int)
    requires WellKeyed(s)
    ensures Run(s, astronaut, items, now).processed == Accepted(StockOf(s.meds), items)
    decreases |items|, 1
  {
    if |items| > 0 && items[0].medication in s.meds && items[0].quantity <= s.meds[items[0].medication].current {
      ServedProcessesAccepted(s, astronaut, items, now);
    } else {
      RunIdle(s, astronaut, items, now);
      AcceptedStep(StockOf(s.meds), items);
    }
  }

  lemma {:induction false} ServedProcessesAccepted(s: Store, astronaut: int, items: seq<Item>, now: int)
    requires WellKeyed(s)
    requires |items| > 0 && items[0].medication in s.meds
    requires items[0].quantity <= s.meds[items[0].medication].current
    ensures Run(s, astronaut, items, now).processed == Accepted(StockOf(s.meds), items)
    decreases |items|, 0
  {
    var s1, _ := ServeStep(s, astronaut, items, now);
    RunProcessesAccepted(s1, astronaut, items[1..], now);
    AcceptedCount(Run(s, astronaut, items, now).processed, Run(s1, astronaut, items[1..], now).processed,
                  StockOf(s.meds), StockOf(s1.meds), items);
  }

  /** `stock1` is `stock` after the first item, which fits, has been taken. */
  predicate TakesFirst(stock: map<int, int>, stock1: map<int, int>, items: seq<Item>) {
    && |items| > 0 && items[0].medication in stock && items[0].quantity <= stock[items[0].medication]
    && stock1 == stock[items[0].medication := stock[items[0].medication] - items[0].quantity]
  }

  lemma AcceptedCount(n: int, n1: int, stock: map<int, int>, stock1: map<int, int>, items: seq<Item>)
    requires TakesFirst(stock, stock1, items)
    requires n == n1 + 1 && n1 == Accepted(stock1, items[1..])
    ensures n == Accepted(stock, items)
  {
  }

  /** The items accepted are exactly those before the first item that does not
      fit the stock left by the earlier ones. */
  lemma RunStopsAtFirstMisfit(s: Store, astronaut: int, items: seq<Item>, now: int)
    requires WellKeyed(s)
    ensures var r, stock := Run(s, astronaut, items, now), StockOf(s.meds);
            && (forall k :: 0 <= k < r.processed ==> ItemFits(stock, items, k))
            && (r.processed < |items| ==> !ItemFits(stock, items, r.processed))
  {
    RunProcessesAccepted(s, astronaut, items, now);
    AcceptedIsFirstMisfit(StockOf(s.meds), items);
  }

  /** Today's checkout total of a medication after the loop is the total before
      it plus what the accepted items of this request took: the running total
      each threshold check sees counts every earlier same-day checkout. */
  lemma {:induction false} RunAccumulatesDailyTotal(s: Store, astronaut: int, items: seq<Item>, now: int, medication: int)
    requires WellKeyed(s)
    ensures var r := Run(s, astronaut, items, now);
            CheckedOutToday(r.store.checkouts, astronaut, medication, DayStart(now))
            == CheckedOutToday(s.checkouts, astronaut, medication, DayStart(now)) + QuantityFor(items[..r.processed], medication)
    decreases |items|, 1
  {
    if |items| > 0 && items[0].medication in s.meds && items[0].quantity <= s.meds[items[0].medication].current {
      ServedAccumulatesDailyTotal(s, astronaut, items, now, medication);
    } else {
      assert items[..0] == [];
    }
  }

  lemma {:induction false} ServedAccumulatesDailyTotal(s: Store, astronaut: int, items: seq<Item>, now: int, medication: int)
    requires WellKeyed(s)
    requires |items| > 0 && items[0].medication in s.meds
    requires items[0].quantity <= s.meds[items[0].medication].current
    ensures var r := Run(s, astronaut, items, now);
            CheckedOutToday(r.store.checkouts, astronaut, medication, DayStart(now))
            == CheckedOutToday(s.checkouts, astronaut, medication, DayStart(now)) + QuantityFor(items[..r.processed], medication)
    decreases |items|, 0
  {
    var s1, _ := ServeStep(s, astronaut, items, now);
    RunAccumulatesDailyTotal(s1, astronaut, items[1..], now, medication);
    AccumulatesClose(Run(s, astronaut, items, now), Run(s1, astronaut, items[1..], now), s, s1, items, astronaut, now, medication);
  }

  lemma AccumulatesClose(r: RunResult, rest: RunResult, s: Store, s1: Store, items: seq<Item>,
                         astronaut: int, now: int, medication: int)
    requires rest.processed < |items|
    requires r.store == rest.store && r.processed == rest.processed + 1
    requires s1.checkouts == s.checkouts
               + [CheckoutRecord(Some(s.nextPk), astronaut, items[0].medication, items[0].quantity, now, items[0].isPrescription)]
    requires CheckedOutToday(rest.store.checkouts, astronaut, medication, DayStart(now))
             == CheckedOutToday(s1.checkouts, astronaut, medication, DayStart(now)) + QuantityFor(items[1..][..rest.processed], medication)
    ensures CheckedOutToday(r.store.checkouts, astronaut, medication, DayStart(now))
            == CheckedOutToday(s.checkouts, astronaut, medication, DayStart(now)) + QuantityFor(items[..r.processed], medication)
  {
    assert s1.checkouts[..|s.checkouts|] == s.checkouts;
    assert DayStart(now) <= now;
    QuantityForPrefix(items, rest.processed);
  }

  /** The JSON response of the view. */
  datatype Response =
    | Completed(checkouts: nat, unlockStatus: bool, warnings: seq<Triggered>, warningMessage: Option<string>)
    | Failed(status: int, message: string)

  function WarningMessage(ts: seq<Triggered>): string {
    "Warning: Excessive medication withdrawal detected for " + Text.Join(Names(ts), ", ")
  }

  function Names(ts: seq<Triggered>): (r: seq<string>)
    ensures |r| == |ts| && forall i :: 0 <= i < |ts| ==> r[i] == ts[i].medicationName
  {
    if |ts| == 0 then [] else [ts[0].medicationName] + Names(ts[1..])
  }

  /** `checkout_medication(request)`: an unknown astronaut or medication is the
      `Http404` the view turns into status 500; insufficient stock is status
      400; otherwise the container is unlocked (`unlocked` is what the unlock
      call returned) and the response lists the warnings. */
  function CheckoutMedication(s: Store, astronaut: int, items: seq<Item>, now: int, unlocked: bool)
    : (r: (Store, Response))
    requires WellKeyed(s)
    ensures astronaut !in s.astronauts ==> r == (s, Failed(500, "No Astronaut matches the given query."))
    ensures r.1.Completed? <==> astronaut in s.astronauts && Run(s, astronaut, items, now).stop.None?
    ensures r.1.Completed? ==> r.1.checkouts == |items| && r.1.unlockStatus == unlocked
    ensures r.1.Completed? ==> (r.1.warningMessage.Some? <==> |r.1.warnings| > 0)
    ensures r.1.Failed? ==> r.1.status in {400, 500}
    ensures StockNonNegative(s) ==> StockNonNegative(r.0)
  {
    if astronaut !in s.astronauts then (s, Failed(500, "No Astronaut matches the given query."))
    else
      var run := Run(s, astronaut, items, now);
      match run.stop
      case None =>
        (run.store, Completed(run.processed, unlocked, run.triggered,
                              if |run.triggered| > 0 then Some(WarningMessage(run.triggered)) else None))
      case Some(UnknownMedication(_)) =>
        (run.store, Failed(500, "No Medication matches the given query."))
      case Some(InsufficientStock(name)) =>
        (run.store, Failed(400, "Insufficient stock for " + name))
  }

  /** Outcome of `dispense_medication`. */
  datatype DispenseOutcome = NotFound | Insufficient(available: int) | Dispensed(quantity: int, warned: bool)

  /** `dispense_medication(request, medication_id)` on POST: the quantity
      defaults to 1; more than the stock is refused and changes nothing;
      otherwise the variant threshold check runs and the stock drops by the
      quantity whether or not it warned. */
  function Dispense(s: Store, user: int, medication: int, quantity: Option<int>, now: int)
    : (r: (Store, DispenseOutcome))
    requires WellKeyed(s)
    ensures WellKeyed(r.0) && r.0.meds.Keys == s.meds.Keys
    ensures medication !in s.meds ==> r == (s, NotFound)
    ensures medication in s.meds ==>
              var q := if quantity.Some? then quantity.value else 1;
              var med := s.meds[medication];
              if q > med.current then r == (s, Insufficient(med.current))
              else
                var (warned, log) := CheckVariant(med.threshold, user, medication, q, now, s.warnings);
                && r.1 == Dispensed(q, warned)
                && r.0.meds[medication].current == med.current - q
                && r.0.meds[medication].status == StatusFor(med.current - q, med.minimum)
                && r.0.meds[medication].(current := med.current, status := med.status) == med
                && r.0.warnings == log
                && r.0.checkouts == s.checkouts
                && (forall id :: id in s.meds && id != medication ==> r.0.meds[id] == s.meds[id])
    ensures StockNonNegative(s) ==> StockNonNegative(r.0)
  {
    if medication !in s.meds then (s, NotFound)
    else
      var q := if quantity.Some? then quantity.value else 1;
      var med := s.meds[medication];
      if q > med.current then (s, Insufficient(med.current))
      else
        var (warned, log) := CheckVariant(med.threshold, user, medication, q, now, s.warnings);
        (s.(meds := s.meds[medication := SaveMedication(med.(current := med.current - q))], warnings := log),
         Dispensed(q, warned))
  }
}

=== FILE: common.dfy ===
/** Small shared vocabulary: an optional value and Python's `round` on exact reals. */
module Common {

  /** The conventional Some/None datatype, standing for Python's `None`. */
  datatype Option<+T> = None | Some(value: T)

  /** `round(x, 1)`: the nearest multiple of 0.1, halves rounded up.
      Python rounds the binary float half-to-even; on exact reals the two
      differ only at exact halves. */
  function Round1(x: real): (r: real)
    ensures x - 0.05 < r <= x + 0.05
    ensures (r * 10.0).Floor as real == r * 10.0
  {
    ((x * 10.0 + 0.5).Floor as real) / 10.0
  }

  /** `round(x, 2)`: the nearest multiple of 0.01, halves rounded up. */
  function Round2(x: real): (r: real)
    ensures x - 0.005 < r <= x + 0.005
    ensures (r * 100.0).Floor as real == r * 100.0
  {
    ((x * 100.0 + 0.5).Floor as real) / 100.0
  }

  /** Rounding never moves a value past a bound that is itself a multiple of
      the rounding step: a value at or above 55 rounds to at least 55. */
  lemma Round1AtLeast(x: real, k: int)
    requires x >= k as real
    ensures Round1(x) >= k as real
  {
    var y := x * 10.0 + 0.5;
    assert y >= (10 * k) as real + 0.5;
    assert y.Floor >= 10 * k;
  }

  lemma Round1AtMost(x: real, k: int)
    requires x <= k as real
    ensures Round1(x) <= k as real
  {
    var y := x * 10.0 + 0.5;
    assert y <= (10 * k) as real + 0.5;
    assert y.Floor <= 10 * k;
  }

  lemma Round2AtLeast(x: real, k: int)
    requires x >= k as real
    ensures Round2(x) >= k as real
  {
    var y := x * 100.0 + 0.5;
    assert y >= (100 * k) as real + 0.5;
    assert y.Floor >= 100 * k;
  }
}

=== FILE: dosage.dfy ===
/** `PillBottleReader.extract_dosage` (medical_inventory/views.py): the first
    match of `(\d+\.?\d*)\s*(mg|mcg|g|ml|units?)`, case-insensitive, rendered
    as "<number> <unit>". The regular expression is modelled twice: as the
    backtracking engine's greedy scan, and as a declarative description of
    every possible match; the lemmas show the two agree. Digits are ASCII. */
module Dosage {
  import opened Common
  import Text

  predicate IsDigit(c: char) {
    '0' <= c <= '9'
  }

  // ---------------------------------------------------------------------
  // Declarative description of a match
  // ---------------------------------------------------------------------

  /** `\d+\.?\d*`: a digit, then digits, with at most one dot, and only digits
      before it. */
  ghost predicate IsNumber(t: string) {
    && |t| > 0 && IsDigit(t[0])
    && forall k :: 0 <= k < |t| ==>
         IsDigit(t[k]) || (t[k] == '.' && forall j :: 0 <= j < k ==> IsDigit(t[j]))
  }

  /** One of the unit alternatives, ignoring case. */
  ghost predicate IsUnitWord(t: string) {
    Text.Lower(t) in {"mg", "mcg", "g", "ml", "units", "unit"}
  }

  /** Group 1 can be `s[i..i + n]`. */
  ghost predicate NumberAt(s: string, i: int, n: int) {
    0 <= i && 0 <= n && i + n <= |s| && IsNumber(s[i..i + n])
  }

  /** `\s*` can be `s[k..k + w]`. */
  ghost predicate SpacesAt(s: string, k: int, w: int) {
    0 <= k && 0 <= w && k + w <= |s| && forall j :: k <= j < k + w ==> Text.IsSpace(s[j])
  }

  /** Group 2 can be `s[k..k + u]`. */
  ghost predicate UnitAt(s: string, k: int, u: int) {
    0 <= k && 0 <= u && k + u <= |s| && IsUnitWord(s[k..k + u])
  }

  /** The pattern matches `s` from `i` with a number of length `n`, `w`
      whitespace characters and a unit of length `u`. */
  ghost predicate MatchAt(s: string, i: int, n: int, w: int, u: int) {
    NumberAt(s, i, n) && SpacesAt(s, i + n, w) && UnitAt(s, i + n + w, u)
  }

  ghost predicate MatchesAt(s: string, i: int) {
    exists n, w, u :: MatchAt(s, i, n, w, u)
  }

  // ---------------------------------------------------------------------
  // The engine's greedy scan
  // ---------------------------------------------------------------------

  /** Length of the run of characters from `k` satisfying the digit test. */
  function DigitRun(s: string, k: nat): (n: nat)
    requires k <= |s|
    ensures k + n <= |s|
    decreases |s| - k
  {
    if k < |s| && IsDigit(s[k]) then 1 + DigitRun(s, k + 1) else 0
  }

  /** The digit run is maximal: all digits, then a non-digit or the end. */
  lemma {:induction false} DigitRunSpan(s: string, k: nat)
    requires k <= |s|
    ensures forall j :: k <= j < k + DigitRun(s, k) ==> IsDigit(s[j])
    ensures k + DigitRun(s, k) < |s| ==> !IsDigit(s[k + DigitRun(s, k)])
    decreases |s| - k
  {
    if k < |s| && IsDigit(s[k]) {
      DigitRunSpan(s, k + 1);
    }
  }

  /** Length of the run of whitespace from `k`. */
  function SpaceRun(s: string, k: nat): (n: nat)
    requires k <= |s|
    ensures k + n <= |s|
    decreases |s| - k
  {
    if k < |s| && Text.IsSpace(s[k]) then 1 + SpaceRun(s, k + 1) else 0
  }

  /** The whitespace run is maximal. */
  lemma {:induction false} SpaceRunSpan(s: string, k: nat)
    requires k <= |s|
    ensures SpacesAt(s, k, SpaceRun(s, k))
    ensures k + SpaceRun(s, k) < |s| ==> !Text.IsSpace(s[k + SpaceRun(s, k)])
    decreases |s| - k
  {
    if k < |s| && Text.IsSpace(s[k]) {
      SpaceRunSpan(s, k + 1);
    }
  }

  /** What `\d+\.?\d*` consumes from `i`: 0 when `s[i]` is not a digit. */
  function NumLen(s: string, i: nat): (n: nat)
    requires i <= |s|
    ensures i + n <= |s|
  {
    var a := DigitRun(s, i);
    if a == 0 then 0
    else if i + a < |s| && s[i + a] == '.' then a + 1 + DigitRun(s, i + a + 1)
    else a
  }

  /** `s` continues at `k` with `word`, ignoring case; the engine compares
      one character at a time. */
  predicate StartsWithAt(s: string, k: nat, word: string): (b: bool)
    ensures b ==> k + |word| <= |s|
    decreases |word|
  {
    k <= |s| && (|word| == 0 || (k < |s| && Text.LowerChar(s[k]) == word[0] && StartsWithAt(s, k + 1, word[1..])))
  }

  /** Character by character, `word` is what `s` holds at `k`, case folded. */
  lemma {:induction false} StartsWithAtChars(s: string, k: nat, word: string)
    ensures StartsWithAt(s, k, word) <==>
              k + |word| <= |s| && forall j :: 0 <= j < |word| ==> Text.LowerChar(s[k + j]) == word[j]
    decreases |word|
  {
    if |word| > 0 {
      StartsWithAtChars(s, k + 1, word[1..]);
      if k + |word| <= |s| && forall j :: 0 <= j < |word| ==> Text.LowerChar(s[k + j]) == word[j] {
        forall j | 0 <= j < |word| - 1
          ensures Text.LowerChar(s[k + 1 + j]) == word[1..][j]
        {
          assert Text.LowerChar(s[k + (j + 1)]) == word[j + 1];
        }
      }
      if StartsWithAt(s, k, word) {
        forall j | 0 <= j < |word|
          ensures Text.LowerChar(s[k + j]) == word[j]
        {
          if j > 0 {
            assert word[1..][j - 1] == word[j];
          }
        }
      }
    }
  }

  /** What the unit group consumes at `k`: the engine tries the alternatives
      in order, `units?` trying the plural first, and the first that fits
      wins; 0 when none does. */
  function UnitLen(s: string, k: nat): (u: nat)
    requires k <= |s|
    ensures k + u <= |s|
  {
    if StartsWithAt(s, k, "mg") then 2
    else if StartsWithAt(s, k, "mcg") then 3
    else if StartsWithAt(s, k, "g") then 1
    else if StartsWithAt(s, k, "ml") then 2
    else if StartsWithAt(s, k, "units") then 5
    else if StartsWithAt(s, k, "unit") then 4
    else 0
  }

  /** The engine succeeds from `i`. */
  predicate HitAt(s: string, i: nat)
    requires i <= |s|
  {
    var n := NumLen(s, i);
    n > 0 && UnitLen(s, i + n + SpaceRun(s, i + n)) > 0
  }

  /** `pattern.search` from `i` on: the engine tries each start in turn and
      stops at the first success. */
  function Scan(s: string, i: nat): (r: Option<nat>)
    requires i <= |s|
    ensures r.Some? ==> i <= r.value < |s|
    decreases |s| - i
  {
    if i == |s| then None
    else if HitAt(s, i) then Some(i)
    else Scan(s, i + 1)
  }

  /** The search stops at a hit, every start before it fails, and it finds
      nothing only when every start fails. */
  lemma {:induction false} ScanFirstHit(s: string, i: nat)
    requires i <= |s|
    ensures Scan(s, i).Some? ==> HitAt(s, Scan(s, i).value)
    ensures Scan(s, i).Some? ==> forall j :: i <= j < Scan(s, i).value ==> !HitAt(s, j)
    ensures Scan(s, i).None? ==> forall j :: i <= j <= |s| ==> !HitAt(s, j)
    decreases |s| - i
  {
    if i < |s| && !HitAt(s, i) {
      ScanFirstHit(s, i + 1);
    }
  }

  /** The text of the match at `i`: group 1, a space, group 2. */
  function Render(s: string, i: nat): string
    requires i <= |s|
  {
    var n := NumLen(s, i);
    var w := SpaceRun(s, i + n);
    s[i..i + n] + " " + s[i + n + w..i + n + w + UnitLen(s, i + n + w)]
  }

  /** `extract_dosage`. */
  function ExtractDosage(s: string): Option<string> {
    match Scan(s, 0)
    case None => None
    case Some(i) => Some(Render(s, i))
  }

  // ---------------------------------------------------------------------
  // The scan agrees with the description
  // ---------------------------------------------------------------------

  /** What the greedy number consumes is a number, and every character it
      consumes is a digit or a dot. */
  lemma NumLenIsNumber(s: string, i: nat)
    requires i <= |s| && NumLen(s, i) > 0
    ensures NumberAt(s, i, NumLen(s, i))
  {
    var a := DigitRun(s, i);
    var t := s[i..i + NumLen(s, i)];
    DigitRunSpan(s, i);
    if i + a < |s| && s[i + a] == '.' {
      DigitRunSpan(s, i + a + 1);
    }
    forall k | 0 <= k < |t|
      ensures IsDigit(t[k]) || (t[k] == '.' && forall j :: 0 <= j < k ==> IsDigit(t[j]))
    {
      assert t[k] == s[i + k];
      if k == a {
        forall j | 0 <= j < k ensures IsDigit(t[j]) {
          assert t[j] == s[i + j];
        }
      }
    }
  }

  /** A number at `i` never runs past the greedy one, and where it stops short
      the next character is a digit or a dot. */
  lemma NumberWithinGreedy(s: string, i: nat, n: nat)
    requires NumberAt(s, i, n)
    ensures n <= NumLen(s, i)
    ensures n < NumLen(s, i) ==> IsDigit(s[i + n]) || s[i + n] == '.'
  {
    var t := s[i..i + n];
    var a := DigitRun(s, i);
    DigitRunSpan(s, i);
    assert t[0] == s[i];
    if n > a {
      assert t[a] == s[i + a];
      assert s[i + a] == '.';
      var b := DigitRun(s, i + a + 1);
      DigitRunSpan(s, i + a + 1);
      if n > a + 1 + b {
        assert false;
      }
    }
  }

  /** A declarative match at `i` is the greedy one: its number and its
      whitespace are exactly what the engine consumes, and the engine's unit
      is at least as long (`units` wins over `unit`). */
  lemma MatchIsGreedy(s: string, i: nat, n: nat, w: nat, u: nat)
    requires MatchAt(s, i, n, w, u)
    ensures n == NumLen(s, i) && w == SpaceRun(s, i + n)
    ensures 0 < u <= UnitLen(s, i + n + w)
  {
    var k := i + n + w;
    UnitStartsWithLetter(s, k, u);
    NumberWithinGreedy(s, i, n);
    if w > 0 {
      assert Text.IsSpace(s[i + n]);
    }
    SpaceRunExact(s, i + n, w);
    UnitChoice(s, k, u);
  }

  /** A unit word starts with a character that is neither whitespace, nor a
      digit, nor a dot. */
  lemma UnitStartsWithLetter(s: string, k: nat, u: nat)
    requires UnitAt(s, k, u)
    ensures u > 0 && !Text.IsSpace(s[k]) && !IsDigit(s[k]) && s[k] != '.'
  {
    var t := Text.Lower(s[k..k + u]);
    assert t in {"mg", "mcg", "g", "ml", "units", "unit"};
    assert t[0] == Text.LowerChar(s[k]);
  }

  /** Whitespace followed by a non-space character is exactly the run. */
  lemma SpaceRunExact(s: string, k: nat, w: nat)
    requires SpacesAt(s, k, w) && k + w < |s| && !Text.IsSpace(s[k + w])
    ensures SpaceRun(s, k) == w
  {
    SpaceRunSpan(s, k);
  }

  /** The unit written at `k` fits there. */
  lemma FoldedFits(s: string, k: nat, u: nat)
    requires k + u <= |s|
    ensures StartsWithAt(s, k, Text.Lower(s[k..k + u]))
  {
    var t := Text.Lower(s[k..k + u]);
    forall j | 0 <= j < |t|
      ensures Text.LowerChar(s[k + j]) == t[j]
    {
      assert s[k..k + u][j] == s[k + j];
    }
    StartsWithAtChars(s, k, t);
  }

  /** Two alternatives that differ at a common position cannot both fit. */
  lemma Conflict(s: string, k: nat, fits: string, other: string, j: nat)
    requires StartsWithAt(s, k, fits) && j < |fits| && j < |other| && fits[j] != other[j]
    ensures !StartsWithAt(s, k, other)
  {
    StartsWithAtChars(s, k, fits);
    StartsWithAtChars(s, k, other);
    assert Text.LowerChar(s[k + j]) == fits[j];
  }

  /** The alternatives exclude each other except `unit`/`units`, where the
      plural is tried first: whatever unit is written at `k`, the engine's
      choice is at least as long. */
  lemma UnitChoice(s: string, k: nat, u: nat)
    requires UnitAt(s, k, u)
    ensures 0 < u <= UnitLen(s, k)
  {
    var t := Text.Lower(s[k..k + u]);
    FoldedFits(s, k, u);
    if t == "mcg" {
      Conflict(s, k, t, "mg", 1);
    } else if t == "g" {
      Conflict(s, k, t, "mg", 0);
      Conflict(s, k, t, "mcg", 0);
    } else if t != "mg" {
      assert t in {"ml", "units", "unit"};
      Conflict(s, k, t, "mg", if t == "ml" then 1 else 0);
      Conflict(s, k, t, "mcg", if t == "ml" then 1 else 0);
      Conflict(s, k, t, "g", 0);
      if t != "ml" {
        Conflict(s, k, t, "ml", 0);
      }
    }
  }

  /** What the engine consumes at a hit is a match, and no other unit length
      matches there with a longer unit. */
  lemma GreedyMatch(s: string, i: nat)
    requires i <= |s| && HitAt(s, i)
    ensures var n := NumLen(s, i); var w := SpaceRun(s, i + n); var u := UnitLen(s, i + n + w);
            MatchAt(s, i, n, w, u) && LongestUnit(s, i, n, w, u)
  {
    var n := NumLen(s, i);
    var w := SpaceRun(s, i + n);
    var u := UnitLen(s, i + n + w);
    NumLenIsNumber(s, i);
    SpaceRunSpan(s, i + n);
    UnitLenIsUnit(s, i + n + w);
    forall u' | MatchAt(s, i, n, w, u')
      ensures u' <= u
    {
      MatchIsGreedy(s, i, n, w, u');
    }
  }

  /** What fits at `k` is what is written there, case folded. */
  lemma FitIsWritten(s: string, k: nat, word: string)
    requires StartsWithAt(s, k, word)
    ensures Text.Lower(s[k..k + |word|]) == word
  {
    StartsWithAtChars(s, k, word);
    var t := s[k..k + |word|];
    forall j | 0 <= j < |word|
      ensures Text.Lower(t)[j] == word[j]
    {
      assert t[j] == s[k + j];
    }
  }

  /** What the engine's unit group consumes is a unit word. */
  lemma UnitLenIsUnit(s: string, k: nat)
    requires k <= |s| && UnitLen(s, k) > 0
    ensures UnitAt(s, k, UnitLen(s, k))
  {
    var word := if StartsWithAt(s, k, "mg") then "mg"
                else if StartsWithAt(s, k, "mcg") then "mcg"
                else if StartsWithAt(s, k, "g") then "g"
                else if StartsWithAt(s, k, "ml") then "ml"
                else if StartsWithAt(s, k, "units") then "units"
                else "unit";
    FitIsWritten(s, k, word);
  }

  /** The engine succeeds at `i` exactly when the pattern matches there. */
  lemma HitIffMatch(s: string, i: nat)
    requires i <= |s|
    ensures HitAt(s, i) <==> MatchesAt(s, i)
  {
    if HitAt(s, i) {
      GreedyMatch(s, i);
    }
    if MatchesAt(s, i) {
      var n, w, u :| MatchAt(s, i, n, w, u);
      MatchIsGreedy(s, i, n, w, u);
    }
  }

  /** No start before `i` matches. */
  ghost predicate NoMatchBefore(s: string, i: int) {
    forall j :: 0 <= j < i ==> !MatchesAt(s, j)
  }

  /** At the same start, number and whitespace, no longer unit matches. */
  ghost predicate LongestUnit(s: string, i: int, n: int, w: int, u: int) {
    forall u' :: MatchAt(s, i, n, w, u') ==> u' <= u
  }

  /** `d` is the rendering of a match at `i` that starts leftmost and takes
      the longest unit there. */
  ghost predicate LeftmostLongest(s: string, d: string, i: int, n: int, w: int, u: int) {
    && MatchAt(s, i, n, w, u) && LongestUnit(s, i, n, w, u) && NoMatchBefore(s, i)
    && d == s[i..i + n] + " " + s[i + n + w..i + n + w + u]
  }

  /** The first hit renders a leftmost match with the longest unit. */
  lemma FirstHitIsLeftmostLongest(s: string, i: nat)
    requires i <= |s| && HitAt(s, i)
    requires forall j :: 0 <= j < i ==> !HitAt(s, j)
    ensures var n := NumLen(s, i); var w := SpaceRun(s, i + n);
            LeftmostLongest(s, Render(s, i), i, n, w, UnitLen(s, i + n + w))
  {
    GreedyMatch(s, i);
    forall j | 0 <= j < i
      ensures !MatchesAt(s, j)
    {
      HitIffMatch(s, j);
    }
  }

  /** A found dosage comes from the leftmost place where the pattern matches,
      with the longest unit there. */
  lemma ExtractDosageSound(s: string)
    ensures ExtractDosage(s).Some? ==>
              exists i, n, w, u :: LeftmostLongest(s, ExtractDosage(s).value, i, n, w, u)
  {
    ScanFirstHit(s, 0);
    if Scan(s, 0).Some? {
      var i := Scan(s, 0).value;
      FirstHitIsLeftmostLongest(s, i);
    }
  }

  /** No dosage is reported exactly when the pattern matches nowhere. */
  lemma ExtractDosageNone(s: string)
    ensures ExtractDosage(s).None? <==> forall i :: 0 <= i <= |s| ==> !MatchesAt(s, i)
  {
    assert ExtractDosage(s).None? <==> Scan(s, 0).None?;
    ScanFirstHit(s, 0);
    forall i | 0 <= i <= |s|
      ensures HitAt(s, i) <==> MatchesAt(s, i)
    {
      HitIffMatch(s, i);
    }
  }

  /** A label reading "Take 5 MG" yields "5 MG": the case is kept. */
  lemma ExampleLabel()
    ensures ExtractDosage("Take 5 MG") == Some("5 MG")
  {
    var s := "Take 5 MG";
    forall j | 0 <= j < 5 ensures !HitAt(s, j) {
      assert !IsDigit(s[j]);
      assert DigitRun(s, j) == 0;
    }
    assert DigitRun(s, 5) == 1 by {
      assert DigitRun(s, 6) == 0;
    }
    assert SpaceRun(s, 6) == 1 by {
      assert SpaceRun(s, 7) == 0;
    }
    assert StartsWithAt(s, 7, "mg") by {
      assert StartsWithAt(s, 8, "g");
    }
    assert UnitLen(s, 7) == 2;
    assert HitAt(s, 5);
    assert Scan(s, 5) == Some(5);
    assert Scan(s, 0) == Scan(s, 1) == Scan(s, 2) == Scan(s, 3) == Scan(s, 4) == Scan(s, 5);
    assert Render(s, 5) == "5 MG";
  }
}

=== FILE: face.dfy ===
/** The accept/reject rule of `authenticate_face` (medical_inventory/views.py).
    Face detection, encoding and `face_distance` belong to a foreign library:
    the model receives how many faces each detector found and, for every
    encoding, its distance to each enrolled astronaut, in enrolment order. */
module FaceAuth {
  import opened Common
  import Ranking

  /** Largest distance still taken as a match. */
  const MaxDistance: real := 0.45

  /** Smallest gap required between the best and the second-best distance. */
  const MinGap: real := 0.08

  datatype Outcome =
    | InvalidRequest
    | NoFace
    | NoEncoding
    | NoEnrolledUsers
    | NotRecognized(best: real)
    | Ambiguous(gap: real)
    | Authenticated(astronaut: int, confidence: real)

  /** The `SystemLog` row the view writes, if any. */
  datatype AuditEvent = AuthFailure | AuthSuccess(astronaut: int)

  /** `distances.argmin()`: the first index holding the smallest distance. */
  function Argmin(d: seq<real>): (b: nat)
    requires |d| > 0
    ensures b < |d|
    ensures forall i :: 0 <= i < |d| ==> d[b] <= d[i]
    ensures forall i :: 0 <= i < b ==> d[i] > d[b]
  {
    if |d| == 1 then 0
    else
      var t := Argmin(d[1..]);
      if d[0] <= d[1 + t] then 0 else 1 + t
  }

  /** `sorted(distances)`: ascending order, as the descending sort on the
      negated value. */
  function Ascending(d: seq<real>): (s: seq<real>)
    ensures |s| == |d| && multiset(s) == multiset(d)
    ensures forall i, j :: 0 <= i < j < |s| ==> s[i] <= s[j]
  {
    var s := Ranking.SortDesc(d, (x: real) => -x);
    assert forall i, j :: 0 <= i < j < |s| ==> -s[i] >= -s[j];
    s
  }

  /** The loop body for one encoding: every branch returns. */
  function Decide(d: seq<real>, enrolled: seq<int>): (r: Outcome)
    requires |d| == |enrolled| > 0
    ensures r.NotRecognized? || r.Ambiguous? || r.Authenticated?
    ensures r.NotRecognized? <==> forall i :: 0 <= i < |d| ==> d[i] > MaxDistance
    ensures r.Ambiguous? ==> |d| > 1 && 0.0 <= r.gap < MinGap
    ensures r.Authenticated? ==> 55.0 <= r.confidence
  {
    var b := Argmin(d);
    if d[b] > MaxDistance then NotRecognized(d[b])
    else
      var s := Ascending(d);
      if |d| > 1 && s[1] - s[0] < MinGap then Ambiguous(s[1] - s[0])
      else
        Round1AtLeast((1.0 - d[b]) * 100.0, 55);
        Authenticated(enrolled[b], Round1((1.0 - d[b]) * 100.0))
  }

  /** The whole view: a POST with an image, then the CNN detector with the HOG
      detector as fallback, then the encodings, then the enrolled astronauts,
      then the first encoding decides. Each distance list has one entry per
      enrolled astronaut, as `face_distance` guarantees. */
  function Authenticate(isPostWithImage: bool, cnnFaces: nat, hogFaces: nat,
                        encodings: seq<seq<real>>, enrolled: seq<int>): (r: Outcome)
    requires forall e :: e in encodings ==> |e| == |enrolled|
    ensures r == InvalidRequest <==> !isPostWithImage
    ensures r == NoFace <==> isPostWithImage && cnnFaces == 0 && hogFaces == 0
    ensures isPostWithImage && (cnnFaces > 0 || hogFaces > 0) ==> (r == NoEncoding <==> |encodings| == 0)
    ensures r == NoEnrolledUsers <==>
              isPostWithImage && (cnnFaces > 0 || hogFaces > 0) && |encodings| > 0 && |enrolled| == 0
    ensures isPostWithImage && (cnnFaces > 0 || hogFaces > 0) && |encodings| > 0 && |enrolled| > 0 ==>
              r == Decide(encodings[0], enrolled)
    ensures r.Authenticated? ==> r.astronaut in enrolled
  {
    if !isPostWithImage then InvalidRequest
    else if cnnFaces == 0 && hogFaces == 0 then NoFace
    else if |encodings| == 0 then NoEncoding
    else if |enrolled| == 0 then NoEnrolledUsers
    else
      assert encodings[0] in encodings;
      Decide(encodings[0], enrolled)
  }

  /** The log entry each outcome leaves: success names the astronaut; a face
      that was seen but not accepted is a failure; a missing face is a failure
      too, while a failed encoding or an empty roster leaves no trace. */
  function Audit(r: Outcome): (e: Option<AuditEvent>)
    ensures e.Some? && e.value.AuthSuccess? <==> r.Authenticated?
    ensures r.Authenticated? ==> e == Some(AuthSuccess(r.astronaut))
    ensures e == Some(AuthFailure) <==> r == NoFace || r.NotRecognized? || r.Ambiguous?
  {
    match r
    case NoFace => Some(AuthFailure)
    case NotRecognized(_) => Some(AuthFailure)
    case Ambiguous(_) => Some(AuthFailure)
    case Authenticated(a, _) => Some(AuthSuccess(a))
    case _ => None
  }

  /** The reference rule: user `k` is a match when its distance is within the
      threshold and every other distance is at least the gap further away. */
  ghost predicate Accepts(d: seq<real>, k: int) {
    && 0 <= k < |d| && d[k] <= MaxDistance
    && forall j :: 0 <= j < |d| && j != k ==> d[j] >= d[k] + MinGap
  }

  /** `d` without entry `b`. */
  function Without(d: seq<real>, b: nat): (r: seq<real>)
    requires b < |d|
    ensures |r| == |d| - 1
    ensures forall j :: 0 <= j < b ==> r[j] == d[j]
    ensures forall j :: b <= j < |r| ==> r[j] == d[j + 1]
  {
    d[..b] + d[b + 1..]
  }

  /** The head of the ascending order is the smallest distance, and the rest
      of it holds exactly the other distances. */
  lemma AscendingSplit(d: seq<real>)
    requires |d| > 0
    ensures Ascending(d)[0] == d[Argmin(d)]
    ensures multiset(Ascending(d)[1..]) == multiset(Without(d, Argmin(d)))
  {
    var s, b := Ascending(d), Argmin(d);
    AscendingHead(d);
    WithoutMultiset(d, b);
    TailMultiset(s);
  }

  lemma TailMultiset(s: seq<real>)
    requires |s| > 0
    ensures multiset(s[1..]) == multiset(s) - multiset{s[0]}
  {
    assert s == [s[0]] + s[1..];
  }

  lemma AscendingHead(d: seq<real>)
    requires |d| > 0
    ensures Ascending(d)[0] == d[Argmin(d)]
  {
    var s, b := Ascending(d), Argmin(d);
    assert s[0] in multiset(d);
    assert d[b] in multiset(s);
  }

  lemma WithoutMultiset(d: seq<real>, b: nat)
    requires b < |d|
    ensures multiset(Without(d, b)) == multiset(d) - multiset{d[b]}
  {
    assert d == d[..b] + [d[b]] + d[b + 1..];
  }

  /** The sorted-list gap test is the reference test on the other distances:
      second-best minus best is at least `g` exactly when every distance but
      the best is at least `g` above it. */
  lemma GapTest(d: seq<real>, g: real)
    requires |d| > 1
    ensures Ascending(d)[1] - Ascending(d)[0] >= g
            <==> forall j :: 0 <= j < |d| && j != Argmin(d) ==> d[j] >= d[Argmin(d)] + g
  {
    if Ascending(d)[1] - Ascending(d)[0] >= g {
      GapTestForward(d, g);
    } else {
      GapTestBackward(d, g);
    }
  }

  lemma GapTestForward(d: seq<real>, g: real)
    requires |d| > 1 && Ascending(d)[1] - Ascending(d)[0] >= g
    ensures forall j :: 0 <= j < |d| && j != Argmin(d) ==> d[j] >= d[Argmin(d)] + g
  {
    forall j | 0 <= j < |d| && j != Argmin(d)
      ensures d[j] >= d[Argmin(d)] + g
    {
      GapOne(d, g, j);
    }
  }

  lemma GapOne(d: seq<real>, g: real, j: nat)
    requires |d| > 1 && Ascending(d)[1] - Ascending(d)[0] >= g
    requires j < |d| && j != Argmin(d)
    ensures d[j] >= d[Argmin(d)] + g
  {
    var s, b := Ascending(d), Argmin(d);
    AscendingSplit(d);
    WithoutKeeps(d, b, j);
    var k := InTail(s, d[j]);
    assert s[1] <= s[k];
  }

  lemma WithoutKeeps(d: seq<real>, b: nat, j: nat)
    requires b < |d| && j < |d| && j != b
    ensures d[j] in multiset(Without(d, b))
  {
    var i := if j < b then j else j - 1;
    assert Without(d, b)[i] == d[j];
  }

  lemma InTail(s: seq<real>, x: real) returns (k: nat)
    requires |s| > 0 && x in multiset(s[1..])
    ensures 1 <= k < |s| && s[k] == x
  {
    var t := s[1..];
    assert x in t;
    var i :| 0 <= i < |t| && t[i] == x;
    k := i + 1;
  }

  lemma GapTestBackward(d: seq<real>, g: real)
    requires |d| > 1 && Ascending(d)[1] - Ascending(d)[0] < g
    ensures exists j :: 0 <= j < |d| && j != Argmin(d) && d[j] < d[Argmin(d)] + g
  {
    var s, b := Ascending(d), Argmin(d);
    AscendingSplit(d);
    var w := Without(d, b);
    assert s[1..][0] in multiset(w);
    var i :| 0 <= i < |w| && w[i] == s[1];
    var j := if i < b then i else i + 1;
    assert d[j] == s[1] && j != b;
  }

  /** The rule accepts exactly the reference match, and then logs in that
      astronaut with confidence `round((1 - distance) * 100, 1)`. */
  lemma DecideAcceptsIff(d: seq<real>, enrolled: seq<int>, k: int)
    requires |d| == |enrolled| > 0
    ensures Accepts(d, k) ==> Decide(d, enrolled) == Authenticated(enrolled[k], Round1((1.0 - d[k]) * 100.0))
    ensures Decide(d, enrolled).Authenticated? && k == Argmin(d) ==> Accepts(d, k)
  {
    var b := Argmin(d);
    if |d| > 1 {
      GapTest(d, MinGap);
    }
  }

  /** Some astronaut is accepted exactly when the reference rule picks one. */
  lemma AcceptedIffSomeMatch(d: seq<real>, enrolled: seq<int>)
    requires |d| == |enrolled| > 0
    ensures Decide(d, enrolled).Authenticated? <==> exists k :: Accepts(d, k)
  {
    if Decide(d, enrolled).Authenticated? {
      DecideAcceptsIff(d, enrolled, Argmin(d));
    } else if exists k :: Accepts(d, k) {
      var k :| Accepts(d, k);
      DecideAcceptsIff(d, enrolled, k);
    }
  }

  /** Two enrolled astronauts tied for the best distance are never accepted. */
  lemma TieRejected(d: seq<real>, enrolled: seq<int>, i: nat, j: nat)
    requires |d| == |enrolled| > 0
    requires i < |d| && j < |d| && i != j && d[i] == d[j]
    requires forall k :: 0 <= k < |d| ==> d[i] <= d[k]
    ensures !Decide(d, enrolled).Authenticated?
  {
    AcceptedIffSomeMatch(d, enrolled);
  }

  /** An accepted face reports a confidence between 55 and 100. */
  lemma ConfidenceRange(d: seq<real>, enrolled: seq<int>)
    requires |d| == |enrolled| > 0
    requires forall i :: 0 <= i < |d| ==> d[i] >= 0.0
    ensures Decide(d, enrolled).Authenticated? ==>
              55.0 <= Decide(d, enrolled).confidence <= 100.0
  {
    var b := Argmin(d);
    Round1AtMost((1.0 - d[b]) * 100.0, 100);
  }

  /** A lone enrolled astronaut at distance zero is accepted with full confidence. */
  lemma PerfectSingleMatch(enrolled: seq<int>)
    requires |enrolled| == 1
    ensures Decide([0.0], enrolled) == Authenticated(enrolled[0], 100.0)
  {
    assert Round1((1.0 - 0.0) * 100.0) == 100.0 by {
      assert (100.0 * 10.0 + 0.5).Floor == 1000;
    }
  }

  /** Only the first encoding matters: the loop returns on its first pass. */
  lemma FirstEncodingDecides(isPostWithImage: bool, cnnFaces: nat, hogFaces: nat,
                             encodings: seq<seq<real>>, other: seq<seq<real>>, enrolled: seq<int>)
    requires forall e :: e in encodings ==> |e| == |enrolled|
    requires forall e :: e in other ==> |e| == |enrolled|
    requires |encodings| > 0 && |other| > 0 && encodings[0] == other[0]
    ensures Authenticate(isPostWithImage, cnnFaces, hogFaces, encodings, enrolled)
            == Authenticate(isPostWithImage, cnnFaces, hogFaces, other, enrolled)
  {
  }

  /** The view accepts exactly when a face was seen, encoded, astronauts are
      enrolled and the first encoding has a reference match. */
  lemma AuthenticateAcceptsIff(isPostWithImage: bool, cnnFaces: nat, hogFaces: nat,
                               encodings: seq<seq<real>>, enrolled: seq<int>)
    requires forall e :: e in encodings ==> |e| == |enrolled|
    ensures Authenticate(isPostWithImage, cnnFaces, hogFaces, encodings, enrolled).Authenticated?
            <==> && isPostWithImage && (cnnFaces > 0 || hogFaces > 0)
                 && |encodings| > 0 && |enrolled| > 0
                 && exists k :: Accepts(encodings[0], k)
  {
    if isPostWithImage && (cnnFaces > 0 || hogFaces > 0) && |encodings| > 0 && |enrolled| > 0 {
      assert encodings[0] in encodings;
      AcceptedIffSomeMatch(encodings[0], enrolled);
    }
  }
}

=== FILE: inventory.dfy ===
/** The stored records of the cabinet (medical_inventory/models.py) and the two
    `save` hooks that keep stock and status consistent. */
module Inventory {
  import opened Common

  /** `Medication.STATUS_CHOICES` */
  datatype Status = StockNormal | StockLow | StockCritical | StockOut

  /** `Medication.pill_shape` choices */
  datatype Shape = Round | Oval | Capsule | Square | Diamond

  /** `Medication.pill_color` choices */
  datatype Color = White | Red | Blue | Green | Yellow | Orange | Pink | Brown | Black | MultiColor

  /** `MedicationThreshold`: per-medication dose limits. */
  datatype Threshold = Threshold(dailyLimit: int, singleDoseLimit: int, warningPercentage: int)

  /** Default of `MedicationThreshold.warning_percentage`. */
  const DefaultWarningPercentage: int := 80

  /** A threshold created with only the two limits given. */
  function NewThreshold(dailyLimit: int, singleDoseLimit: int): (t: Threshold)
    ensures t.warningPercentage == 80
  {
    Threshold(dailyLimit, singleDoseLimit, DefaultWarningPercentage)
  }

  /** A `Medication` row. `threshold` is the one-to-one `medication.threshold`
      (None when no threshold row exists); `category` is the field the search
      view filters on; `hasPillImage` says whether `pill_image` is set. */
  datatype Medication = Medication(
    id: int,
    name: string,
    genericName: string,
    description: string,
    category: string,
    dosage: string,
    containerLocation: string,
    current: int,
    minimum: int,
    status: Status,
    pillShape: Option<Shape>,
    pillColor: Option<Color>,
    hasPillImage: bool,
    threshold: Option<Threshold>)

  /** `Medication.is_low_stock` */
  predicate IsLowStock(m: Medication) {
    m.current <= m.minimum
  }

  /** The status `update_status` assigns; `current <= minimum * 0.5` is
      `2 * current <= minimum` on integers. */
  function StatusFor(current: int, minimum: int): Status {
    if current == 0 then StockOut
    else if 2 * current <= minimum then StockCritical
    else if current <= minimum then StockLow
    else StockNormal
  }

  /** `Medication.update_status`: only the status changes. */
  function UpdateStatus(m: Medication): (r: Medication)
    ensures r.status == StatusFor(m.current, m.minimum)
    ensures r.(status := m.status) == m
  {
    m.(status := StatusFor(m.current, m.minimum))
  }

  /** `Medication.save`: the status is recomputed before the row is written. */
  function SaveMedication(m: Medication): (r: Medication)
    ensures r.current == m.current && r.minimum == m.minimum
    ensures r.status == StatusFor(r.current, r.minimum)
    ensures r.(status := m.status) == m
  {
    UpdateStatus(m)
  }

  /** Ordering of statuses from empty to well stocked. */
  function StatusRank(s: Status): nat {
    match s
    case StockOut => 0
    case StockCritical => 1
    case StockLow => 2
    case StockNormal => 3
  }

  /** Zero stock is OUT whatever the minimum, and only zero stock is. */
  lemma OutIffEmpty(current: int, minimum: int)
    ensures StatusFor(current, minimum) == StockOut <==> current == 0
  {
  }

  /** The bands for non-zero stock: CRITICAL at or below half the minimum,
      LOW above half and at or below the minimum, NORMAL above the minimum.
      The last holds for positive stock; a negative stock at or below half a
      negative minimum is CRITICAL although it exceeds that minimum. */
  lemma StatusBands(current: int, minimum: int)
    requires current != 0
    ensures StatusFor(current, minimum) == StockCritical <==> 2 * current <= minimum
    ensures StatusFor(current, minimum) == StockLow <==> minimum < 2 * current && current <= minimum
    ensures current > 0 ==> (StatusFor(current, minimum) == StockNormal <==> current > minimum)
  {
  }

  /** With a non-negative minimum, the status is anything but NORMAL exactly
      when the row reports low stock. */
  lemma StatusAgreesWithLowStock(m: Medication)
    requires m.minimum >= 0
    ensures StatusFor(m.current, m.minimum) != StockNormal <==> IsLowStock(m)
  {
  }

  /** With a negative minimum the two disagree: an empty row is OUT yet not low. */
  lemma NegativeMinimumDisagrees(m: Medication)
    requires m.current == 0 && m.minimum < 0
    ensures SaveMedication(m).status == StockOut && !IsLowStock(m)
  {
  }

  /** More stock never gives a worse status. */
  lemma StatusMonotone(q1: int, q2: int, minimum: int)
    requires 0 <= q1 <= q2 && minimum >= 0
    ensures StatusRank(StatusFor(q1, minimum)) <= StatusRank(StatusFor(q2, minimum))
  {
  }

  /** Saving twice is saving once, and the stored status depends on nothing
      but the two quantities. */
  lemma SaveIdempotent(m: Medication, n: Medication)
    ensures SaveMedication(SaveMedication(m)) == SaveMedication(m)
    ensures m.current == n.current && m.minimum == n.minimum ==>
              SaveMedication(m).status == SaveMedication(n).status
  {
  }

  /** A `MedicationCheckout` row; `pk` is None until it is first saved. */
  datatype CheckoutRecord = CheckoutRecord(
    pk: Option<int>,
    astronaut: int,
    medication: int,
    quantity: int,
    time: int,
    isPrescription: bool)

  /** `MedicationCheckout.save`: on first save (no primary key yet) the
      medication loses exactly the checked-out quantity and is saved, which
      recomputes its status; the row then gets the key `newPk` the database
      assigns. A row that already has a key leaves the medication alone. */
  function SaveCheckout(c: CheckoutRecord, med: Medication, newPk: int): (r: (CheckoutRecord, Medication))
    requires med.id == c.medication
    ensures r.0.pk.Some?
    ensures r.0.(pk := c.pk) == c
    ensures c.pk.None? ==> r.1.current == med.current - c.quantity
    ensures c.pk.None? ==> r.1.status == StatusFor(r.1.current, r.1.minimum)
    ensures c.pk.None? ==> r.1.(current := med.current, status := med.status) == med
    ensures c.pk.Some? ==> r == (c, med)
    ensures r.1.id == med.id && r.1.minimum == med.minimum
  {
    if c.pk.None? then
      (c.(pk := Some(newPk)), SaveMedication(med.(current := med.current - c.quantity)))
    else
      (c, med)
  }

  /** Re-saving a checkout that has been saved once does not touch stock again. */
  lemma ResaveKeepsStock(c: CheckoutRecord, med: Medication, k1: int, k2: int)
    requires med.id == c.medication
    ensures var (c1, m1) := SaveCheckout(c, med, k1);
            SaveCheckout(c1, m1, k2).1 == m1
  {
  }

  /** A checkout of no more than the stock leaves the stock non-negative. */
  lemma CheckoutKeepsStockNonNegative(c: CheckoutRecord, med: Medication, k: int)
    requires med.id == c.medication && c.pk.None?
    requires c.quantity <= med.current
    ensures SaveCheckout(c, med, k).1.current >= 0
  {
  }
}

=== FILE: pill_features.dfy ===
/** The colour-and-shape fallback of pill recognition in
    medical_inventory/views.py: the shape rule of `extract_pill_features`,
    `rgb_to_color_name` and `match_pill_by_features`. Contours, circularity,
    polygon approximation and k-means clustering are foreign numerics; the
    model receives their results. */
module PillFeatures {
  import opened Common
  import opened Inventory
  import Ranking

  /** One k-means cluster centre, truncated to integers. */
  datatype Rgb = Rgb(r: int, g: int, b: int)

  /** What the shape and colour analysis reports about the photo. */
  datatype Features = Features(shape: Shape, color: Color)

  /** The shape rule on the approximated polygon's side count and the
      contour's circularity. */
  function ShapeOf(sides: nat, circularity: real): (s: Shape)
    ensures s != Diamond
    ensures s == Round <==> sides < 6 && circularity > 0.7
    ensures s == Square <==> sides == 4 && circularity <= 0.7
    ensures s == Oval <==> (sides == 5 && circularity <= 0.7) || sides == 6 || sides == 7
    ensures s == Capsule <==> (sides < 4 && circularity <= 0.7) || sides >= 8
  {
    if sides < 6 && circularity > 0.7 then Round
    else if sides == 4 then Square
    else if 4 < sides < 8 then Oval
    else Capsule
  }

  /** `rgb_to_color_name`: the first rule that matches names the colour. */
  function ColorName(c: Rgb): Color {
    if c.r > 200 && c.g > 200 && c.b > 200 then White
    else if c.r < 50 && c.g < 50 && c.b < 50 then Black
    else if c.r > 180 && c.g < 100 && c.b < 100 then Red
    else if c.r < 100 && c.g > 180 && c.b < 100 then Green
    else if c.r < 100 && c.g < 100 && c.b > 180 then Blue
    else if c.r > 180 && c.g > 180 && c.b < 100 then Yellow
    else if c.r > 180 && c.g > 100 && c.b < 100 then Orange
    else if c.r > 150 && c.g < 100 && c.b > 150 then Pink
    else if c.r > 120 && c.g > 60 && c.b < 60 then Brown
    else MultiColor
  }

  /** Closed-form region of each named colour, with the earlier rules'
      exclusions worked out: ORANGE is what YELLOW and RED leave of its box,
      and BROWN above red 180 only survives at green exactly 100. */
  ghost predicate Region(c: Rgb, k: Color) {
    match k
    case White => c.r > 200 && c.g > 200 && c.b > 200
    case Black => c.r < 50 && c.g < 50 && c.b < 50
    case Red => c.r > 180 && c.g < 100 && c.b < 100
    case Green => c.r < 100 && c.g > 180 && c.b < 100
    case Blue => c.r < 100 && c.g < 100 && c.b > 180
    case Yellow => c.r > 180 && c.g > 180 && c.b < 100
    case Orange => c.r > 180 && 100 < c.g <= 180 && c.b < 100
    case Pink => c.r > 150 && c.g < 100 && c.b > 150
    case Brown => c.r > 120 && c.g > 60 && c.b < 60 && (c.r <= 180 || c.g == 100)
    case MultiColor => false
  }

  /** The named regions do not overlap. */
  lemma RegionsDisjoint(c: Rgb, k1: Color, k2: Color)
    requires k1 != k2
    ensures !(Region(c, k1) && Region(c, k2))
  {
  }

  /** Naming agrees with the regions: a colour other than MULTI-COLOR is named
      exactly when it lies in that colour's region, and MULTI-COLOR is named
      only outside every region. */
  lemma ColorNameRegions(c: Rgb, k: Color)
    ensures k != MultiColor ==> (ColorName(c) == k <==> Region(c, k))
    ensures ColorName(c) == MultiColor ==> !Region(c, k)
  {
  }

  /** Every `pill_color` choice is produced for some colour. */
  lemma EveryColorNamed(k: Color)
    ensures exists c :: ColorName(c) == k
  {
    var c := match k
      case White => Rgb(255, 255, 255)
      case Black => Rgb(0, 0, 0)
      case Red => Rgb(255, 0, 0)
      case Green => Rgb(0, 255, 0)
      case Blue => Rgb(0, 0, 255)
      case Yellow => Rgb(255, 255, 0)
      case Orange => Rgb(255, 150, 0)
      case Pink => Rgb(255, 0, 255)
      case Brown => Rgb(150, 100, 0)
      case MultiColor => Rgb(128, 128, 128);
    assert ColorName(c) == k;
  }

  /** `extract_pill_features`: no contour gives None; otherwise the shape rule
      and the name of the first cluster centre. */
  function ExtractFeatures(contourFound: bool, sides: nat, circularity: real, dominant: Rgb): (f: Option<Features>)
    ensures f.Some? <==> contourFound
    ensures f.Some? ==> f.value.shape != Diamond && f.value.shape == ShapeOf(sides, circularity)
    ensures f.Some? ==> f.value.color == ColorName(dominant)
  {
    if !contourFound then None
    else Some(Features(ShapeOf(sides, circularity), ColorName(dominant)))
  }

  /** A candidate medication and its score. */
  datatype FeatureMatch = FeatureMatch(medication: int, confidence: int)

  /** 40 points for the stored shape, 40 for the stored colour. */
  function Score(m: Medication, f: Features): (s: int)
    ensures s in {0, 40, 80}
    ensures s == 80 <==> m.pillShape == Some(f.shape) && m.pillColor == Some(f.color)
    ensures s == 0 <==> m.pillShape != Some(f.shape) && m.pillColor != Some(f.color)
  {
    (if m.pillShape == Some(f.shape) then 40 else 0) + (if m.pillColor == Some(f.color) then 40 else 0)
  }

  /** The loop over in-stock medications: keep the ones scoring above 30, in
      table order. */
  function Scored(meds: seq<Medication>, f: Features): (r: seq<FeatureMatch>)
    ensures |r| <= |meds|
    ensures forall x :: x in r ==>
              exists m :: m in meds && m.current > 0 && x == FeatureMatch(m.id, Score(m, f)) && Score(m, f) > 30
    ensures forall m :: m in meds && m.current > 0 && Score(m, f) > 30 ==> FeatureMatch(m.id, Score(m, f)) in r
  {
    if |meds| == 0 then []
    else
      var rest := Scored(meds[1..], f);
      var m := meds[0];
      assert forall m' :: m' in meds[1..] ==> m' in meds;
      assert forall m' :: m' in meds ==> m' == m || m' in meds[1..];
      if m.current > 0 && Score(m, f) > 30 then [FeatureMatch(m.id, Score(m, f))] + rest else rest
  }

  /** Scoring a concatenation scores each part: one entry per kept row, in
      table order. */
  lemma {:induction false} ScoredAppend(a: seq<Medication>, b: seq<Medication>, f: Features)
    ensures Scored(a + b, f) == Scored(a, f) + Scored(b, f)
  {
    if |a| > 0 {
      var m := a[0];
      assert (a + b)[0] == m && (a + b)[1..] == a[1..] + b;
      ScoredAppend(a[1..], b, f);
      if m.current > 0 && Score(m, f) > 30 {
        var x := FeatureMatch(m.id, Score(m, f));
        assert Scored(a + b, f) == [x] + (Scored(a[1..], f) + Scored(b, f));
        assert Scored(a, f) == [x] + Scored(a[1..], f);
      }
    } else {
      assert a + b == b;
    }
  }

  /** A single medication yields its match exactly when it is in stock and
      scores above 30. */
  lemma ScoredOne(m: Medication, f: Features)
    ensures Scored([m], f) == if m.current > 0 && Score(m, f) > 30 then [FeatureMatch(m.id, Score(m, f))] else []
  {
    assert [m][1..] == [];
  }

  function FeatureScore(x: FeatureMatch): real {
    x.confidence as real
  }

  /** What `match_pill_by_features` keeps for features `f`: `matches[:5]` of
      the scored medications sorted best first, each entry an in-stock
      medication matching on shape, colour or both, and any in-stock match
      left out scoring no higher than every one kept. */
  predicate KeptFeatureMatches(r: seq<FeatureMatch>, meds: seq<Medication>, f: Features) {
    && |r| == Ranking.Min(5, |Scored(meds, f)|)
    && multiset(r) <= multiset(Scored(meds, f))
    && (forall i :: 0 <= i < |r| ==>
          exists m :: m in meds && m.current > 0 && r[i] == FeatureMatch(m.id, Score(m, f))
                      && (r[i].confidence == 40 || r[i].confidence == 80))
    && (forall m :: m in meds && m.current > 0 && Score(m, f) > 30 ==>
          FeatureMatch(m.id, Score(m, f)) in r
          || (|r| == 5 && forall i :: 0 <= i < |r| ==> r[i].confidence >= Score(m, f)))
  }

  /** `match_pill_by_features`: no features give no candidates; otherwise the
      five best scored medications, best first. */
  function MatchByFeatures(features: Option<Features>, meds: seq<Medication>): (r: seq<FeatureMatch>)
    ensures features.None? ==> r == []
    ensures |r| <= 5
    ensures Ranking.SortedDesc(r, FeatureScore)
    ensures features.Some? ==> KeptFeatureMatches(r, meds, features.value)
  {
    if features.None? then []
    else
      var all := Scored(meds, features.value);
      var r := Ranking.TopK(all, FeatureScore, 5);
      KeptCandidates(all, r, meds, features.value);
      r
  }

  lemma KeptCandidates(all: seq<FeatureMatch>, r: seq<FeatureMatch>, meds: seq<Medication>, f: Features)
    requires all == Scored(meds, f) && r == Ranking.TopK(all, FeatureScore, 5)
    ensures KeptFeatureMatches(r, meds, f)
  {
    KeptAreScored(all, r, meds, f);
    DroppedScoreLower(all, r, meds, f);
  }

  lemma KeptAreScored(all: seq<FeatureMatch>, r: seq<FeatureMatch>, meds: seq<Medication>, f: Features)
    requires all == Scored(meds, f) && r == Ranking.TopK(all, FeatureScore, 5)
    ensures forall i :: 0 <= i < |r| ==>
              exists m :: m in meds && m.current > 0 && r[i] == FeatureMatch(m.id, Score(m, f))
                          && (r[i].confidence == 40 || r[i].confidence == 80)
  {
    forall i | 0 <= i < |r|
      ensures exists m :: m in meds && m.current > 0 && r[i] == FeatureMatch(m.id, Score(m, f))
                          && (r[i].confidence == 40 || r[i].confidence == 80)
    {
      assert r[i] in all;
    }
  }

  lemma DroppedScoreLower(all: seq<FeatureMatch>, r: seq<FeatureMatch>, meds: seq<Medication>, f: Features)
    requires all == Scored(meds, f) && r == Ranking.TopK(all, FeatureScore, 5)
    ensures forall m :: m in meds && m.current > 0 && Score(m, f) > 30 ==>
              FeatureMatch(m.id, Score(m, f)) in r
              || (|r| == 5 && forall i :: 0 <= i < |r| ==> r[i].confidence >= Score(m, f))
  {
    forall m | m in meds && m.current > 0 && Score(m, f) > 30
      ensures FeatureMatch(m.id, Score(m, f)) in r
              || (|r| == 5 && forall i :: 0 <= i < |r| ==> r[i].confidence >= Score(m, f))
    {
      var x := FeatureMatch(m.id, Score(m, f));
      assert x in all;
      if x !in r {
        assert x in multiset(all);
        assert FeatureScore(x) == Score(m, f) as real;
      }
    }
  }
}

=== FILE: pill_recognition.dfy ===
/** Image-similarity matching and the three-stage `recognize_pill` cascade of
    medical_inventory/views.py. The classifier, the histogram comparison and
    the feature extraction are foreign; their results are parameters. */
module PillRecognition {
  import opened Common
  import opened Inventory
  import opened PillFeatures
  import Ranking

  /** One entry of the response's `matches` list. */
  datatype Candidate = Candidate(medication: int, confidence: real)

  function CandidateScore(c: Candidate): real {
    c.confidence
  }

  /** Lowest histogram correlation, in percent, still reported; exclusive. */
  const MinSimilarity: real := 60.0

  /** Medications the image matcher looks at: in stock and with a stored photo. */
  predicate HasComparableImage(m: Medication) {
    m.current > 0 && m.hasPillImage
  }

  /** The loop of `match_pill_by_image`: `similarity(id)` is the comparison
      with that medication's stored photo, None when the comparison raised (the
      loop then moves on). Similar enough entries are kept in table order with
      the similarity rounded to two decimals. */
  function ImageCandidates(meds: seq<Medication>, similarity: int -> Option<real>): (r: seq<Candidate>)
    ensures forall c :: c in r ==>
              exists m :: m in meds && HasComparableImage(m) && similarity(m.id).Some?
                          && similarity(m.id).value > MinSimilarity
                          && c == Candidate(m.id, Round2(similarity(m.id).value))
    ensures forall m :: m in meds && HasComparableImage(m) && similarity(m.id).Some?
                        && similarity(m.id).value > MinSimilarity ==>
              Candidate(m.id, Round2(similarity(m.id).value)) in r
  {
    if |meds| == 0 then []
    else
      var rest := ImageCandidates(meds[1..], similarity);
      var m := meds[0];
      assert forall m' :: m' in meds[1..] ==> m' in meds;
      assert forall m' :: m' in meds ==> m' == m || m' in meds[1..];
      if HasComparableImage(m) && similarity(m.id).Some? && similarity(m.id).value > MinSimilarity
      then [Candidate(m.id, Round2(similarity(m.id).value))] + rest
      else rest
  }

  /** The candidates of a concatenation are those of each part, in table
      order. */
  lemma {:induction false} ImageCandidatesAppend(a: seq<Medication>, b: seq<Medication>,
                                                 similarity: int -> Option<real>)
    ensures ImageCandidates(a + b, similarity) == ImageCandidates(a, similarity) + ImageCandidates(b, similarity)
  {
    if |a| > 0 {
      assert (a + b)[1..] == a[1..] + b;
      ImageCandidatesAppend(a[1..], b, similarity);
    } else {
      assert a + b == b;
    }
  }

  /** A single medication is a candidate exactly when it has a photo, is in
      stock and its comparison succeeded above the threshold. */
  lemma ImageCandidatesOne(m: Medication, similarity: int -> Option<real>)
    ensures ImageCandidates([m], similarity)
            == if HasComparableImage(m) && similarity(m.id).Some? && similarity(m.id).value > MinSimilarity
               then [Candidate(m.id, Round2(similarity(m.id).value))] else []
  {
    assert [m][1..] == [];
  }

  /** What `match_pill_by_image` keeps of the candidates `all`: `[:5]` of
      them sorted best first, so entries of `all` with no repeats beyond
      `all`'s own, and any candidate left out no more similar than every one
      kept. */
  predicate KeptImageMatches(r: seq<Candidate>, all: seq<Candidate>) {
    && |r| == Ranking.Min(5, |all|)
    && multiset(r) <= multiset(all)
    && (forall i :: 0 <= i < |r| ==> r[i] in all)
    && (forall c :: c in all ==>
          c in r || (|r| == 5 && forall i :: 0 <= i < |r| ==> r[i].confidence >= c.confidence))
  }

  /** `match_pill_by_image`: the five most similar candidates, best first. */
  function MatchByImage(meds: seq<Medication>, similarity: int -> Option<real>): (r: seq<Candidate>)
    ensures |r| <= 5
    ensures Ranking.SortedDesc(r, CandidateScore)
    ensures KeptImageMatches(r, ImageCandidates(meds, similarity))
  {
    var all := ImageCandidates(meds, similarity);
    var r := Ranking.TopK(all, CandidateScore, 5);
    ImageTop(all, r);
    r
  }

  lemma ImageTop(all: seq<Candidate>, r: seq<Candidate>)
    requires r == Ranking.TopK(all, CandidateScore, 5)
    ensures KeptImageMatches(r, all)
  {
    forall c | c in all
      ensures c in r || (|r| == 5 && forall i :: 0 <= i < |r| ==> r[i].confidence >= c.confidence)
    {
      if c !in r {
        assert c in multiset(all);
      }
    }
  }

  /** Every reported image match clears the threshold, but after rounding the
      reported figure can sit exactly at 60. */
  lemma ImageConfidenceFloor(meds: seq<Medication>, similarity: int -> Option<real>)
    ensures forall i :: 0 <= i < |MatchByImage(meds, similarity)| ==>
              MatchByImage(meds, similarity)[i].confidence >= MinSimilarity
  {
    var r := MatchByImage(meds, similarity);
    forall i | 0 <= i < |r|
      ensures r[i].confidence >= MinSimilarity
    {
      assert r[i] in ImageCandidates(meds, similarity);
      var m :| m in meds && HasComparableImage(m) && similarity(m.id).Some?
               && similarity(m.id).value > MinSimilarity
               && r[i] == Candidate(m.id, Round2(similarity(m.id).value));
      Round2AtLeast(similarity(m.id).value, 60);
    }
  }

  /** A similarity just above the threshold is reported as exactly 60. */
  lemma RoundedToThreshold()
    ensures Round2(60.004) == 60.0 && 60.004 > MinSimilarity
  {
    assert (60.004 * 100.0 + 0.5).Floor == 6000;
  }

  /** What the classifier stage produced: no model loaded (or the library
      missing), an exception, or a class index with its probability in percent. */
  datatype CnnResult = CnnUnavailable | CnnFailed | CnnPrediction(classIndex: int, confidence: real)

  /** A stage that may raise. */
  datatype Stage<T> = StageFailed | StageDone(value: T)

  datatype Method = CnnModel | FeatureMatching | ImageSimilarity | NoMethod

  datatype Recognition =
    | NoImage
    | Recognized(via: Method, matches: seq<Candidate>, features: Option<Features>)

  /** Smallest classifier confidence, in percent, that is trusted; exclusive. */
  const MinCnnConfidence: real := 70.0

  /** `Medication.objects.get(id=...)`. */
  function FindMedication(meds: seq<Medication>, id: int): (r: Option<Medication>)
    ensures r.Some? <==> exists m :: m in meds && m.id == id
    ensures r.Some? ==> r.value in meds && r.value.id == id
  {
    if |meds| == 0 then None
    else if meds[0].id == id then Some(meds[0])
    else
      assert forall m :: m in meds ==> m == meds[0] || m in meds[1..];
      FindMedication(meds[1..], id)
  }

  /** The classifier's answer is used: confident enough and naming a stored
      medication by primary key. */
  ghost predicate CnnHit(cnn: CnnResult, meds: seq<Medication>) {
    cnn.CnnPrediction? && cnn.confidence > MinCnnConfidence
    && exists m :: m in meds && m.id == cnn.classIndex
  }

  function AsCandidates(fm: seq<FeatureMatch>): (r: seq<Candidate>)
    ensures |r| == |fm|
    ensures forall i :: 0 <= i < |r| ==> r[i] == Candidate(fm[i].medication, fm[i].confidence as real)
  {
    seq(|fm|, i requires 0 <= i < |fm| => Candidate(fm[i].medication, fm[i].confidence as real))
  }

  /** `recognize_pill`: the classifier first, then colour and shape, then photo
      similarity; a stage that raises hands over to the next, and the features
      found, if any, are reported even when nothing matched. */
  function Recognize(isPostWithImage: bool, cnn: CnnResult, features: Stage<Option<Features>>,
                     imageStage: Stage<()>, meds: seq<Medication>, similarity: int -> Option<real>): (r: Recognition)
    ensures r == NoImage <==> !isPostWithImage
    ensures r.Recognized? ==> |r.matches| <= 5
    ensures r.Recognized? ==> (r.via == NoMethod <==> |r.matches| == 0)
    ensures r.Recognized? ==> (r.via == CnnModel <==> CnnHit(cnn, meds))
    ensures r.Recognized? && r.via == CnnModel ==>
              |r.matches| == 1 && r.matches[0].medication == cnn.classIndex
              && r.matches[0].confidence == Round2(cnn.confidence) && r.features.None?
    ensures r.Recognized? && r.via != CnnModel ==>
              r.features == (if features.StageDone? then features.value else None)
  {
    if !isPostWithImage then NoImage
    else
      var hit := if cnn.CnnPrediction? && cnn.confidence > MinCnnConfidence
                 then FindMedication(meds, cnn.classIndex) else None;
      if hit.Some? then
        Recognized(CnnModel, [Candidate(hit.value.id, Round2(cnn.confidence))], None)
      else
        var found := if features.StageDone? then features.value else None;
        var fm := if found.Some? then MatchByFeatures(found, meds) else [];
        if |fm| > 0 then Recognized(FeatureMatching, AsCandidates(fm), found)
        else
          var im := if imageStage.StageDone? then MatchByImage(meds, similarity) else [];
          if |im| > 0 then Recognized(ImageSimilarity, im, found)
          else Recognized(NoMethod, [], found)
  }

  /** The fall-through order: colour and shape are used exactly when the
      classifier was not, the features were found and they match something;
      photo similarity only when neither earlier stage answered. */
  lemma CascadeOrder(isPostWithImage: bool, cnn: CnnResult, features: Stage<Option<Features>>,
                     imageStage: Stage<()>, meds: seq<Medication>, similarity: int -> Option<real>)
    requires isPostWithImage
    ensures var r := Recognize(isPostWithImage, cnn, features, imageStage, meds, similarity);
            var featureHit := features.StageDone? && features.value.Some?
                              && |MatchByFeatures(features.value, meds)| > 0;
            && (r.via == FeatureMatching <==> !CnnHit(cnn, meds) && featureHit)
            && (r.via == ImageSimilarity <==>
                  !CnnHit(cnn, meds) && !featureHit && imageStage.StageDone?
                  && |MatchByImage(meds, similarity)| > 0)
  {
  }

  /** Every candidate names an in-stock medication of the table. */
  ghost predicate AllInStock(meds: seq<Medication>, cs: seq<Candidate>) {
    forall i :: 0 <= i < |cs| ==> exists m :: m in meds && m.current > 0 && m.id == cs[i].medication
  }

  /** Only the classifier can name a medication that is out of stock: the two
      fallback stages report in-stock medications only. */
  lemma FallbackMatchesInStock(isPostWithImage: bool, cnn: CnnResult, features: Stage<Option<Features>>,
                               imageStage: Stage<()>, meds: seq<Medication>, similarity: int -> Option<real>)
    requires isPostWithImage
    ensures var r := Recognize(isPostWithImage, cnn, features, imageStage, meds, similarity);
            r.via != CnnModel ==> AllInStock(meds, r.matches)
  {
    var found := if features.StageDone? then features.value else None;
    RecognizeReports(isPostWithImage, cnn, features, imageStage, meds, similarity);
    if found.Some? {
      FeatureMatchesInStock(found, meds);
    }
    ImageMatchesInStock(meds, similarity);
    assert AllInStock(meds, []);
  }

  /** Each fallback method reports its own stage's list: the colour-and-shape
      candidates, the photo-similarity candidates, or nothing. */
  lemma RecognizeReports(isPostWithImage: bool, cnn: CnnResult, features: Stage<Option<Features>>,
                         imageStage: Stage<()>, meds: seq<Medication>, similarity: int -> Option<real>)
    requires isPostWithImage
    ensures var r := Recognize(isPostWithImage, cnn, features, imageStage, meds, similarity);
            var found := if features.StageDone? then features.value else None;
            r.via == FeatureMatching ==> found.Some? && r.matches == AsCandidates(MatchByFeatures(found, meds))
    ensures var r := Recognize(isPostWithImage, cnn, features, imageStage, meds, similarity);
            r.via == ImageSimilarity ==> imageStage.StageDone? && r.matches == MatchByImage(meds, similarity)
    ensures var r := Recognize(isPostWithImage, cnn, features, imageStage, meds, similarity);
            r.via == NoMethod ==> r.matches == []
  {
  }

  lemma FeatureMatchesInStock(found: Option<Features>, meds: seq<Medication>)
    requires found.Some?
    ensures AllInStock(meds, AsCandidates(MatchByFeatures(found, meds)))
  {
    var fm := MatchByFeatures(found, meds);
    var c := AsCandidates(fm);
    forall i | 0 <= i < |c|
      ensures exists m :: m in meds && m.current > 0 && m.id == c[i].medication
    {
      assert c[i].medication == fm[i].medication;
    }
  }

  lemma ImageMatchesInStock(meds: seq<Medication>, similarity: int -> Option<real>)
    ensures AllInStock(meds, MatchByImage(meds, similarity))
  {
    var im := MatchByImage(meds, similarity);
    forall i | 0 <= i < |im|
      ensures exists m :: m in meds && m.current > 0 && m.id == im[i].medication
    {
      assert im[i] in ImageCandidates(meds, similarity);
    }
  }

  /** A confident classifier naming a stored medication wins even when that
      medication is out of stock. */
  lemma CnnIgnoresStock(med: Medication, features: Stage<Option<Features>>,
                        imageStage: Stage<()>, similarity: int -> Option<real>)
    requires med.current == 0
    ensures var r := Recognize(true, CnnPrediction(med.id, 90.0), features, imageStage, [med], similarity);
            r.via == CnnModel && r.matches == [Candidate(med.id, 90.0)]
  {
    assert med in [med];
    assert (90.0 * 100.0 + 0.5).Floor == 9000;
  }
}

=== FILE: ranking.dfy ===
/** Candidate ranking as the recognisers do it: `list.sort(key=..., reverse=True)`
    (a stable sort, highest score first) followed by `[:k]`. */
module Ranking {

  /** Non-increasing by score. */
  ghost predicate SortedDesc<T>(xs: seq<T>, score: T -> real) {
    forall i, j :: 0 <= i < j < |xs| ==> score(xs[i]) >= score(xs[j])
  }

  /** Places `x` in front of the first element that does not outscore it, so an
      element that came earlier keeps its place among equal scores. */
  function Insert<T>(x: T, xs: seq<T>, score: T -> real): (r: seq<T>)
    requires SortedDesc(xs, score)
    ensures multiset(r) == multiset(xs) + multiset{x}
    ensures SortedDesc(r, score)
    ensures |r| == |xs| + 1
  {
    if |xs| == 0 || score(x) >= score(xs[0]) then [x] + xs
    else
      var tail := Insert(x, xs[1..], score);
      assert xs == [xs[0]] + xs[1..];
      HeadDominates(x, xs, tail, score);
      [xs[0]] + tail
  }

  /** The head of a sorted list outscores anything built from its tail and
      an element it beats. */
  lemma HeadDominates<T>(x: T, xs: seq<T>, tail: seq<T>, score: T -> real)
    requires SortedDesc(xs, score) && |xs| > 0 && score(x) < score(xs[0])
    requires multiset(tail) == multiset(xs[1..]) + multiset{x}
    ensures forall k :: 0 <= k < |tail| ==> score(xs[0]) >= score(tail[k])
  {
    forall k | 0 <= k < |tail|
      ensures score(xs[0]) >= score(tail[k])
    {
      assert tail[k] in multiset(tail);
      if tail[k] != x {
        assert tail[k] in multiset(xs[1..]);
        var m :| 0 <= m < |xs[1..]| && xs[1..][m] == tail[k];
        assert xs[m + 1] == tail[k];
      }
    }
  }

  /** `sorted(xs, key=score, reverse=True)`. */
  function SortDesc<T>(xs: seq<T>, score: T -> real): (r: seq<T>)
    ensures multiset(r) == multiset(xs)
    ensures SortedDesc(r, score)
    ensures |r| == |xs|
  {
    if |xs| == 0 then []
    else
      assert xs == [xs[0]] + xs[1..];
      Insert(xs[0], SortDesc(xs[1..], score), score)
  }

  function Min(a: int, b: int): int {
    if a <= b then a else b
  }

  /** `sorted(xs, ...)[:k]`: the `k` best-scoring candidates, best first. */
  function TopK<T>(xs: seq<T>, score: T -> real, k: nat): (r: seq<T>)
    ensures |r| == Min(k, |xs|)
    ensures SortedDesc(r, score)
    ensures forall i :: 0 <= i < |r| ==> r[i] in xs
    ensures forall x :: x in xs ==>
              x in r || forall i :: 0 <= i < |r| ==> score(r[i]) >= score(x)
    ensures multiset(r) <= multiset(xs)
    ensures |r| < k ==> multiset(r) == multiset(xs)
  {
    var s := SortDesc(xs, score);
    var r := s[..Min(k, |s|)];
    assert |r| < k ==> r == s;
    assert s == r + s[|r|..];
    PrefixOfPermutation(xs, s, r, score);
    r
  }

  /** A prefix `r` of a sorted permutation `s` of `xs` holds elements of `xs`,
      and every element of `xs` it leaves out scores no higher than all of it. */
  lemma PrefixOfPermutation<T>(xs: seq<T>, s: seq<T>, r: seq<T>, score: T -> real)
    requires multiset(s) == multiset(xs) && SortedDesc(s, score)
    requires |r| <= |s| && r == s[..|r|]
    ensures forall i :: 0 <= i < |r| ==> r[i] in xs
    ensures forall x :: x in xs ==>
              x in r || forall i :: 0 <= i < |r| ==> score(r[i]) >= score(x)
  {
    forall i | 0 <= i < |r|
      ensures r[i] in xs
    {
      assert s[i] in multiset(s);
    }
    forall x | x in xs
      ensures x in r || forall i :: 0 <= i < |r| ==> score(r[i]) >= score(x)
    {
      assert x in multiset(s);
      var j :| 0 <= j < |s| && s[j] == x;
      if j < |r| {
        assert r[j] == x;
      }
    }
  }
}

=== FILE: search.dfy ===
/** `search_medications` and `is_admin` of the enhancement views
    (medical_inventory_enhancements/.../views_additions.py): the medication
    list behind the search box, and the staff test guarding the admin views.
    Rendering and the JSON shape are left to the caller. */
module MedicationSearch {
  import opened Inventory
  import Text
  import Ranking

  /** The two Django user flags the admin test reads. */
  datatype User = User(isSuperuser: bool, isStaff: bool)

  /** `is_admin`: superusers and staff. */
  predicate IsAdmin(u: User) {
    u.isSuperuser || u.isStaff
  }

  /** Most rows the search returns. */
  const PageSize: nat := 20

  /** `field__icontains=query`, ASCII case folding on both sides. */
  predicate IContains(field: string, query: string) {
    Text.Contains(Text.Lower(field), Text.Lower(query))
  }

  /** The `Q(...) | Q(...) | Q(...)` filter: the query occurs in the name, the
      description or the category. */
  predicate Hit(m: Medication, query: string) {
    IContains(m.name, query) || IContains(m.description, query) || IContains(m.category, query)
  }

  /** The filtered queryset in table order. */
  function Filter(meds: seq<Medication>, query: string): (r: seq<Medication>)
    ensures |r| <= |meds|
    ensures forall m :: m in r ==> m in meds && Hit(m, query)
    ensures forall m :: m in meds && Hit(m, query) ==> m in r
  {
    if |meds| == 0 then []
    else
      var rest := Filter(meds[1..], query);
      assert forall m :: m in meds[1..] ==> m in meds;
      assert forall m :: m in meds ==> m == meds[0] || m in meds[1..];
      if Hit(meds[0], query) then [meds[0]] + rest else rest
  }

  /** The slice `[:20]`. */
  function Page(ms: seq<Medication>): (r: seq<Medication>)
    ensures |r| == Ranking.Min(PageSize, |ms|)
    ensures r == ms[..|r|]
  {
    ms[..Ranking.Min(PageSize, |ms|)]
  }

  /** `search_medications`: the query is stripped; a blank query lists the
      first twenty medications, otherwise the first twenty that match. */
  function Search(query: string, meds: seq<Medication>): (r: seq<Medication>)
    ensures |r| <= PageSize
    ensures Text.Strip(query) == "" ==> |r| == Ranking.Min(PageSize, |meds|) && r == meds[..|r|]
    ensures Text.Strip(query) != "" ==>
              forall m :: m in r ==> m in meds && Hit(m, Text.Strip(query))
    ensures Text.Strip(query) != "" && |r| < PageSize ==>
              forall m :: m in meds && Hit(m, Text.Strip(query)) ==> m in r
    ensures Text.Strip(query) != "" ==>
              var hits := Filter(meds, Text.Strip(query));
              r == hits[..Ranking.Min(PageSize, |hits|)]
  {
    var q := Text.Strip(query);
    if q == "" then Page(meds)
    else
      var all := Filter(meds, q);
      var r := Page(all);
      assert forall m :: m in r ==> m in all;
      r
  }

  /** Filtering a concatenation filters each part: the result keeps the
      table's order. */
  lemma {:induction false} FilterAppend(a: seq<Medication>, b: seq<Medication>, query: string)
    ensures Filter(a + b, query) == Filter(a, query) + Filter(b, query)
  {
    if |a| > 0 {
      assert (a + b)[1..] == a[1..] + b;
      FilterAppend(a[1..], b, query);
    } else {
      assert a + b == b;
    }
  }

  /** Filtering twice with the same query changes nothing. */
  lemma {:induction false} FilterIdempotent(meds: seq<Medication>, query: string)
    ensures Filter(Filter(meds, query), query) == Filter(meds, query)
  {
    if |meds| > 0 {
      FilterIdempotent(meds[1..], query);
      var rest := Filter(meds[1..], query);
      if Hit(meds[0], query) {
        assert ([meds[0]] + rest)[1..] == rest;
      }
    }
  }

  /** A medication is kept exactly when it matches. */
  lemma FilterOne(m: Medication, query: string)
    ensures Filter([m], query) == (if Hit(m, query) then [m] else [])
  {
    assert [m][1..] == [];
  }

  /** Lower-casing is the same on two queries that fold to the same text. */
  lemma SameFold(q1: string, q2: string, field: string)
    requires Text.Lower(q1) == Text.Lower(q2)
    ensures IContains(field, q1) == IContains(field, q2)
  {
  }

  /** The search ignores the case of the query. */
  lemma {:induction false} FilterIgnoresCase(meds: seq<Medication>, q1: string, q2: string)
    requires Text.Lower(q1) == Text.Lower(q2)
    ensures Filter(meds, q1) == Filter(meds, q2)
  {
    if |meds| > 0 {
      FilterIgnoresCase(meds[1..], q1, q2);
      var m := meds[0];
      SameFold(q1, q2, m.name);
      SameFold(q1, q2, m.description);
      SameFold(q1, q2, m.category);
    }
  }

  /** Stripping is idempotent, so surrounding whitespace never changes the
      answer. */
  lemma SearchIgnoresPadding(query: string, meds: seq<Medication>)
    ensures Search(Text.Strip(query), meds) == Search(query, meds)
  {
    Text.StripUnbounded(Text.Strip(query));
  }

  /** A query that matches every medication lists the same rows as the blank
      query. */
  lemma {:induction false} UniversalQueryListsAll(meds: seq<Medication>, query: string)
    requires forall m :: m in meds ==> Hit(m, query)
    ensures Filter(meds, query) == meds
  {
    if |meds| > 0 {
      assert meds[0] in meds;
      assert forall m :: m in meds[1..] ==> m in meds;
      UniversalQueryListsAll(meds[1..], query);
    }
  }
}

=== FILE: text.dfy ===
/** Python's string primitives used by the label reader and the search view:
    `lower()`, `strip()`, `split()`, `' '.join(...)`, `split('\n')` and the
    substring test `a in b`. Only the ASCII part of Python's Unicode tables is
    modelled (see README). */
module Text {

  /** `str.isspace()` restricted to ASCII: tab, line feed, vertical tab, form
      feed, carriage return, the four separators 0x1C-0x1F, and space. This is
      also what the regular-expression class `\s` matches on ASCII text. */
  predicate IsSpace(c: char) {
    9 <= c as int <= 13 || 28 <= c as int <= 32
  }

  predicate IsUpper(c: char) {
    'A' <= c <= 'Z'
  }

  /** ASCII case folding of one character. */
  function LowerChar(c: char): (d: char)
    ensures IsUpper(c) ==> d as int == c as int + 32
    ensures !IsUpper(c) ==> d == c
    ensures !IsUpper(d)
  {
    if IsUpper(c) then (c as int + 32) as char else c
  }

  /** `s.lower()`. */
  function Lower(s: string): (r: string)
    ensures |r| == |s|
    ensures forall i :: 0 <= i < |s| ==> r[i] == LowerChar(s[i])
  {
    if |s| == 0 then "" else [LowerChar(s[0])] + Lower(s[1..])
  }

  /** `needle in hay`: some contiguous slice of `hay` equals `needle`. */
  predicate Contains(hay: string, needle: string)
    decreases |hay|
  {
    (|needle| <= |hay| && hay[..|needle|] == needle)
    || (|hay| > 0 && Contains(hay[1..], needle))
  }

  /** The recursive substring test agrees with the slice-based definition. */
  lemma {:induction false} ContainsAt(hay: string, needle: string, i: nat)
    requires i + |needle| <= |hay| && hay[i..i + |needle|] == needle
    ensures Contains(hay, needle)
    decreases i
  {
    if i == 0 {
      assert hay[..|needle|] == hay[0..|needle|];
    } else {
      assert hay[1..][i - 1..i - 1 + |needle|] == hay[i..i + |needle|];
      ContainsAt(hay[1..], needle, i - 1);
    }
  }

  /** Lower-casing both sides preserves a substring occurrence. */
  lemma {:induction false} LowerPreservesContains(hay: string, needle: string)
    requires Contains(hay, needle)
    ensures Contains(Lower(hay), Lower(needle))
    decreases |hay|
  {
    if |needle| <= |hay| && hay[..|needle|] == needle {
      assert Lower(hay)[..|needle|] == Lower(needle);
    } else {
      LowerPreservesContains(hay[1..], needle);
      assert Lower(hay)[1..] == Lower(hay[1..]);
    }
  }

  /** `r` is the slice of `s` from `i` with only whitespace before and after it. */
  predicate Bounds(s: string, r: string, i: int) {
    && 0 <= i <= |s| - |r| && r == s[i..i + |r|]
    && (forall k :: 0 <= k < i ==> IsSpace(s[k]))
    && (forall k :: i + |r| <= k < |s| ==> IsSpace(s[k]))
  }

  /** `s.lstrip()` */
  function StripLeft(s: string): (r: string)
    ensures |r| > 0 ==> !IsSpace(r[0])
    ensures Bounds(s, r, |s| - |r|)
  {
    if |s| > 0 && IsSpace(s[0]) then
      var r := StripLeft(s[1..]);
      BoundsShift(s, r, |s| - 1 - |r|);
      r
    else
      assert s[0..|s|] == s;
      s
  }

  /** A leading whitespace character joins the part stripped on the left. */
  lemma BoundsShift(s: string, r: string, i: int)
    requires |s| > 0 && IsSpace(s[0]) && Bounds(s[1..], r, i)
    ensures Bounds(s, r, i + 1)
  {
    assert s[1..][i..i + |r|] == s[i + 1..i + 1 + |r|];
    assert forall k :: 1 <= k < |s| ==> s[k] == s[1..][k - 1];
  }

  /** `s.rstrip()` */
  function StripRight(s: string): (r: string)
    ensures |r| <= |s| && r == s[..|r|]
    ensures forall i :: |r| <= i < |s| ==> IsSpace(s[i])
    ensures |r| > 0 ==> !IsSpace(r[|r| - 1])
    ensures Bounds(s, r, 0)
  {
    if |s| > 0 && IsSpace(s[|s| - 1]) then
      var r := StripRight(s[..|s| - 1]);
      assert s[..|s| - 1][..|r|] == s[..|r|];
      r
    else s
  }

  /** `s.strip()`: the slice left once leading and trailing whitespace is gone. */
  function Strip(s: string): (r: string)
    ensures |r| <= |s|
    ensures |r| > 0 ==> !IsSpace(r[0]) && !IsSpace(r[|r| - 1])
    ensures (forall i :: 0 <= i < |s| ==> IsSpace(s[i])) ==> r == ""
    ensures exists i :: Bounds(s, r, i)
  {
    var l := StripLeft(s);
    var r := StripRight(l);
    BoundsCompose(s, l, |s| - |l|, r, 0);
    r
  }

  /** Stripping a stripped slice strips the whole. */
  lemma BoundsCompose(s: string, l: string, i: int, r: string, j: int)
    requires Bounds(s, l, i) && Bounds(l, r, j)
    ensures Bounds(s, r, i + j)
  {
    assert forall k :: 0 <= k < |l| ==> l[k] == s[i + k];
  }

  /** A string with no whitespace at either end is its own strip. */
  lemma StripUnbounded(s: string)
    requires |s| > 0 ==> !IsSpace(s[0]) && !IsSpace(s[|s| - 1])
    ensures Strip(s) == s
  {
  }

  /** A token of `str.split()`: non-empty and free of whitespace. */
  predicate IsWord(w: string) {
    |w| > 0 && forall i :: 0 <= i < |w| ==> !IsSpace(w[i])
  }

  /** Length of the leading run of non-whitespace characters. */
  function WordLen(s: string): (n: nat)
    ensures n <= |s|
    ensures forall i :: 0 <= i < n ==> !IsSpace(s[i])
    ensures n < |s| ==> IsSpace(s[n])
  {
    if |s| == 0 || IsSpace(s[0]) then 0 else 1 + WordLen(s[1..])
  }

  /** `s.split()` with no argument: the maximal whitespace-free runs, in order. */
  function Words(s: string): (ws: seq<string>)
    ensures forall i :: 0 <= i < |ws| ==> IsWord(ws[i])
    ensures |ws| == 0 <==> forall i :: 0 <= i < |s| ==> IsSpace(s[i])
    decreases |s|
  {
    if |s| == 0 then []
    else if IsSpace(s[0]) then Words(s[1..])
    else
      var n := WordLen(s);
      [s[..n]] + Words(s[n..])
  }

  /** `sep.join(ws)` */
  function Join(ws: seq<string>, sep: string): string {
    if |ws| == 0 then ""
    else if |ws| == 1 then ws[0]
    else ws[0] + sep + Join(ws[1..], sep)
  }

  /** `' '.join(s.split())`: runs of whitespace become one space, and the ends
      are trimmed. */
  function Collapse(s: string): string {
    Join(Words(s), " ")
  }

  lemma {:induction false} WordLenOfWord(w: string, t: string)
    requires IsWord(w)
    requires |t| == 0 || IsSpace(t[0])
    ensures WordLen(w + t) == |w|
    decreases |w|
  {
    if |w| > 1 {
      assert (w + t)[1..] == w[1..] + t;
      WordLenOfWord(w[1..], t);
    } else {
      assert (w + t)[1..] == t;
    }
  }

  /** A word run stops at the same place when more text follows, provided it
      already stopped inside `a` or the continuation starts with whitespace. */
  lemma {:induction false} WordLenExtend(a: string, t: string)
    requires WordLen(a) < |a| || (|t| > 0 && IsSpace(t[0]))
    ensures WordLen(a + t) == WordLen(a)
    decreases |a|
  {
    if |a| > 0 && !IsSpace(a[0]) {
      assert (a + t)[1..] == a[1..] + t;
      WordLenExtend(a[1..], t);
    }
  }

  /** A single word splits into itself. */
  lemma WordsOfWord(w: string)
    requires IsWord(w)
    ensures Words(w) == [w]
  {
    WordLenOfWord(w, "");
    assert w + "" == w;
  }

  /** `split()` cuts at every whitespace character: the words on either side
      of one are the words of the two parts. With `Words("") == []` and
      `WordsOfWord` this fixes `Words` on every input. */
  lemma {:induction false} WordsSplitAtSpace(a: string, c: char, b: string)
    requires IsSpace(c)
    ensures Words(a + [c] + b) == Words(a) + Words(b)
    decreases |a|, 1
  {
    var s := a + [c] + b;
    if |a| == 0 {
      assert s == [c] + b;
      assert s[1..] == b;
    } else if IsSpace(a[0]) {
      assert s[1..] == a[1..] + [c] + b;
      WordsSplitAtSpace(a[1..], c, b);
    } else {
      WordsSplitAfterWord(a, c, b);
    }
  }

  /** The case of `WordsSplitAtSpace` where `a` starts with a word: that word
      is also the first word of the whole. */
  lemma {:induction false} WordsSplitAfterWord(a: string, c: char, b: string)
    requires IsSpace(c) && |a| > 0 && !IsSpace(a[0])
    ensures Words(a + [c] + b) == Words(a) + Words(b)
    decreases |a|, 0
  {
    var s := a + [c] + b;
    var n := WordLen(a);
    assert s == a + ([c] + b);
    WordLenExtend(a, [c] + b);
    assert s[0] == a[0];
    assert s[..n] == a[..n];
    assert s[n..] == a[n..] + [c] + b;
    WordsSplitAtSpace(a[n..], c, b);
  }

  /** Round trip: splitting a space-joined list of words gives the list back. */
  lemma {:induction false} WordsOfJoin(ws: seq<string>)
    requires forall i :: 0 <= i < |ws| ==> IsWord(ws[i])
    ensures Words(Join(ws, " ")) == ws
    decreases |ws|
  {
    if |ws| == 0 {
    } else if |ws| == 1 {
      WordLenOfWord(ws[0], "");
      assert ws[0] + "" == ws[0];
      assert ws[0][|ws[0]|..] == "";
    } else {
      var w, rest := ws[0], Join(ws[1..], " ");
      var s := w + " " + rest;
      assert s == w + (" " + rest);
      WordLenOfWord(w, " " + rest);
      assert s[..|w|] == w;
      assert s[|w|..] == " " + rest;
      assert (" " + rest)[1..] == rest;
      WordsOfJoin(ws[1..]);
      assert Words(s) == [w] + Words(" " + rest);
      assert Words(" " + rest) == Words(rest);
    }
  }

  /** Collapsing whitespace is idempotent. */
  lemma CollapseIdempotent(s: string)
    ensures Collapse(Collapse(s)) == Collapse(s)
  {
    WordsOfJoin(Words(s));
  }

  /** Text already in collapsed form: the only whitespace is single spaces
      between non-space characters. */
  predicate IsCollapsed(s: string) {
    && (forall i :: 0 <= i < |s| && IsSpace(s[i]) ==> s[i] == ' ')
    && (|s| > 0 ==> s[0] != ' ' && s[|s| - 1] != ' ')
    && (forall i :: 0 <= i < |s| - 1 && s[i] == ' ' ==> s[i + 1] != ' ')
  }

  /** In collapsed text a word that does not reach the end is followed by one
      space and then by collapsed text that starts with a non-space. */
  lemma CollapsedRest(s: string, n: nat)
    requires IsCollapsed(s) && n == WordLen(s) && n < |s|
    ensures 0 < n && n + 1 < |s| && s[n] == ' ' && !IsSpace(s[n + 1])
    ensures IsCollapsed(s[n + 1..])
  {
    assert s[n + 1..][0] == s[n + 1];
  }

  /** `split()` of a word, one space, and a non-space start. */
  lemma WordsAfterSpace(s: string, n: nat)
    requires 0 < n && n + 1 < |s| && n == WordLen(s) && s[n] == ' ' && !IsSpace(s[n + 1])
    ensures Words(s) == [s[..n]] + Words(s[n + 1..])
  {
    assert s[n..][1..] == s[n + 1..];
  }

  lemma SplitAround(s: string, n: nat)
    requires n < |s|
    ensures s == s[..n] + [s[n]] + s[n + 1..]
  {
  }

  lemma JoinCons(w: string, ws: seq<string>, sep: string)
    requires |ws| > 0
    ensures Join([w] + ws, sep) == w + sep + Join(ws, sep)
  {
    assert ([w] + ws)[1..] == ws;
  }

  /** Collapsed text is left unchanged by the whitespace normalisation. */
  lemma {:induction false} CollapseFixpoint(s: string)
    requires IsCollapsed(s)
    ensures Collapse(s) == s
    decreases |s|
  {
    if |s| > 0 {
      var n := WordLen(s);
      if n == |s| {
        CollapseWord(s);
      } else {
        CollapsedRest(s, n);
        CollapseFixpoint(s[n + 1..]);
        CollapseCons(s, n);
      }
    }
  }

  /** A single word collapses to itself. */
  lemma CollapseWord(s: string)
    requires |s| > 0 && WordLen(s) == |s|
    ensures Collapse(s) == s
  {
    assert s[..|s|] == s;
    assert Words(s) == [s] + Words(s[|s|..]);
  }

  /** A word, one space and text that collapses to itself collapse to
      themselves. */
  lemma CollapseCons(s: string, n: nat)
    requires 0 < n && n + 1 < |s| && n == WordLen(s) && s[n] == ' ' && !IsSpace(s[n + 1])
    requires Collapse(s[n + 1..]) == s[n + 1..]
    ensures Collapse(s) == s
  {
    var rest := s[n + 1..];
    WordsAfterSpace(s, n);
    assert |Words(rest)| > 0;
    JoinCons(s[..n], Words(rest), " ");
    SplitAround(s, n);
  }

  /** Lower-casing never touches whitespace, so collapsed text stays collapsed. */
  lemma LowerKeepsCollapsed(s: string)
    requires IsCollapsed(s)
    ensures IsCollapsed(Lower(s))
  {
    var l := Lower(s);
    forall i | 0 <= i < |s|
      ensures IsSpace(l[i]) <==> IsSpace(s[i])
      ensures l[i] == ' ' <==> s[i] == ' '
    {
    }
  }

  /** `s.split(sep)` for a one-character separator: always at least one piece. */
  function SplitOn(s: string, sep: char): (r: seq<string>)
    ensures |r| >= 1
    ensures forall i :: 0 <= i < |r| ==> sep !in r[i]
  {
    if |s| == 0 then [""]
    else
      var tail := SplitOn(s[1..], sep);
      if s[0] == sep then [""] + tail
      else [[s[0]] + tail[0]] + tail[1..]
  }

  /** Round trip: joining the pieces with the separator gives the text back. */
  lemma {:induction false} SplitOnJoin(s: string, sep: char)
    ensures Join(SplitOn(s, sep), [sep]) == s
  {
    if |s| > 0 {
      var tail := SplitOn(s[1..], sep);
      SplitOnJoin(s[1..], sep);
      if s[0] == sep {
        assert SplitOn(s, sep) == [""] + tail;
        assert ([""] + tail)[1..] == tail;
      } else {
        var r := [[s[0]] + tail[0]] + tail[1..];
        assert SplitOn(s, sep) == r;
        if |tail| == 1 {
        } else {
          assert r[1..] == tail[1..];
          assert Join(tail, [sep]) == tail[0] + [sep] + Join(tail[1..], [sep]);
        }
      }
    }
  }
}

=== FILE: thresholds.dfy ===
/** The dose-threshold evaluators. `Evaluate` is `check_medication_threshold` of
    medical_inventory/views.py, whose body enhanced_views.py repeats verbatim;
    `CheckVariant` is the different function of the same name in
    views_additions.py. The float comparisons are written exactly on integers:
    `q > 1.5 * L` is `2q > 3L` and `T >= D * (pct / 100)` is `100T >= D * pct`. */
module Thresholds {
  import opened Common
  import opened Inventory

  /** `WarningLog.SEVERITY_CHOICES` */
  datatype Severity = Low | Medium | High | Critical

  function SeverityRank(s: Severity): nat {
    match s
    case Low => 0
    case Medium => 1
    case High => 2
    case Critical => 3
  }

  /** Which check wrote a warning record. */
  datatype Rule = SingleDose | DailyExceeded | DailyApproaching

  /** The content of one warning record the evaluator writes. */
  datatype Warning = Warning(rule: Rule, severity: Severity)

  /** `(warning_created, max_severity)` together with the records written. */
  datatype Evaluation = Evaluation(created: bool, severity: Option<Severity>, warnings: seq<Warning>)

  /** The more severe of an optional severity and another one. */
  function Worse(a: Option<Severity>, b: Severity): Severity {
    if a.Some? && SeverityRank(a.value) >= SeverityRank(b) then a.value else b
  }

  /** The most severe of a list of warnings; None for none. */
  function MostSevere(ws: seq<Warning>): (r: Option<Severity>)
    ensures r.None? <==> |ws| == 0
    ensures r.Some? ==> exists i :: 0 <= i < |ws| && ws[i].severity == r.value
    ensures r.Some? ==> forall i :: 0 <= i < |ws| ==> SeverityRank(ws[i].severity) <= SeverityRank(r.value)
  {
    if |ws| == 0 then None
    else
      var rest := MostSevere(ws[1..]);
      assert forall i :: 1 <= i < |ws| ==> ws[i] == ws[1..][i - 1];
      Some(Worse(rest, ws[0].severity))
  }

  predicate HasRule(ws: seq<Warning>, rule: Rule) {
    exists i :: 0 <= i < |ws| && ws[i].rule == rule
  }

  /** `check_medication_threshold(astronaut, medication, quantity)` of views.py,
      where `priorToday` is the sum of today's earlier checkouts of this
      medication by this astronaut. A missing threshold row, and equally a
      failing import of the threshold models, give `(False, None)`. */
  function Evaluate(threshold: Option<Threshold>, quantity: int, priorToday: int): (r: Evaluation)
    ensures threshold.None? ==> r == Evaluation(false, None, [])
    ensures r.created <==> |r.warnings| > 0
    ensures |r.warnings| <= 2
    ensures r.severity == MostSevere(r.warnings)
  {
    if threshold.None? then Evaluation(false, None, [])
    else
      var t := threshold.value;
      // Check 1: single dose limit
      var single :=
        if quantity > t.singleDoseLimit then
          [Warning(SingleDose, if 2 * quantity > 3 * t.singleDoseLimit then Critical else High)]
        else [];
      var severity := if |single| > 0 then Some(single[0].severity) else None;
      // Check 2: daily limit, counting this request
      var total := priorToday + quantity;
      if total > t.dailyLimit then
        Evaluation(true, Some(Critical), single + [Warning(DailyExceeded, Critical)])
      else if 100 * total >= t.dailyLimit * t.warningPercentage then
        Evaluation(true, if severity.None? then Some(Medium) else severity, single + [Warning(DailyApproaching, Medium)])
      else
        Evaluation(|single| > 0, severity, single)
  }

  /** Which records the evaluator writes, each stated as an if-and-only-if
      on the request and the day's total, and that it writes no others. */
  lemma EvaluateRules(t: Threshold, quantity: int, priorToday: int)
    ensures var r, total := Evaluate(Some(t), quantity, priorToday), priorToday + quantity;
            && (Warning(SingleDose, Critical) in r.warnings <==> quantity > t.singleDoseLimit && 2 * quantity > 3 * t.singleDoseLimit)
            && (Warning(SingleDose, High) in r.warnings <==> quantity > t.singleDoseLimit && 2 * quantity <= 3 * t.singleDoseLimit)
            && (Warning(DailyExceeded, Critical) in r.warnings <==> total > t.dailyLimit)
            && (Warning(DailyApproaching, Medium) in r.warnings <==>
                  total <= t.dailyLimit && 100 * total >= t.dailyLimit * t.warningPercentage)
            && (forall w :: w in r.warnings ==>
                  w in {Warning(SingleDose, Critical), Warning(SingleDose, High),
                        Warning(DailyExceeded, Critical), Warning(DailyApproaching, Medium)})
  {
  }

  /** A request one unit over the single-dose limit is at least HIGH, and one
      more than half again over it is CRITICAL. */
  lemma OverSingleDoseEscalates(t: Threshold, quantity: int, priorToday: int)
    requires quantity > t.singleDoseLimit
    ensures Evaluate(Some(t), quantity, priorToday).severity.Some?
    ensures SeverityRank(Evaluate(Some(t), quantity, priorToday).severity.value) >= SeverityRank(High)
    ensures 2 * quantity > 3 * t.singleDoseLimit ==>
              Evaluate(Some(t), quantity, priorToday).severity == Some(Critical)
  {
    EvaluateRules(t, quantity, priorToday);
    var r := Evaluate(Some(t), quantity, priorToday);
    var w := Warning(SingleDose, if 2 * quantity > 3 * t.singleDoseLimit then Critical else High);
    assert w in r.warnings;
    var i :| 0 <= i < |r.warnings| && r.warnings[i] == w;
  }

  /** Going over the daily limit makes the result CRITICAL whatever the
      single-dose check said. */
  lemma DailyExcessIsCritical(t: Threshold, quantity: int, priorToday: int)
    requires priorToday + quantity > t.dailyLimit
    ensures Evaluate(Some(t), quantity, priorToday).severity == Some(Critical)
  {
    EvaluateRules(t, quantity, priorToday);
    var r := Evaluate(Some(t), quantity, priorToday);
    assert Warning(DailyExceeded, Critical) in r.warnings;
    var i :| 0 <= i < |r.warnings| && r.warnings[i] == Warning(DailyExceeded, Critical);
  }

  /** "Approaching" yields MEDIUM only when no single-dose warning fired. */
  lemma ApproachingIsMediumOnlyAlone(t: Threshold, quantity: int, priorToday: int)
    requires var total := priorToday + quantity;
             total <= t.dailyLimit && 100 * total >= t.dailyLimit * t.warningPercentage
    ensures Evaluate(Some(t), quantity, priorToday).severity == Some(Medium) <==> quantity <= t.singleDoseLimit
  {
    EvaluateRules(t, quantity, priorToday);
    var r := Evaluate(Some(t), quantity, priorToday);
    if quantity > t.singleDoseLimit {
      var w := Warning(SingleDose, if 2 * quantity > 3 * t.singleDoseLimit then Critical else High);
      assert w in r.warnings;
      var i :| 0 <= i < |r.warnings| && r.warnings[i] == w;
    }
  }

  /** The result never gets milder when either the request or the earlier
      total grows. */
  lemma SeverityMonotone(t: Threshold, q1: int, q2: int, p1: int, p2: int)
    requires q1 <= q2 && p1 <= p2
    ensures var r1, r2 := Evaluate(Some(t), q1, p1), Evaluate(Some(t), q2, p2);
            r1.severity.Some? ==> r2.severity.Some? && SeverityRank(r1.severity.value) <= SeverityRank(r2.severity.value)
  {
  }

  /** A `WarningLog` row: who (`subject` is the astronaut in views.py and the
      Django user in views_additions.py), which medication, the requested
      quantity, the rule, the severity and the time in seconds since the epoch. */
  datatype WarningRecord = WarningRecord(
    subject: int,
    medication: int,
    quantityTaken: int,
    rule: Rule,
    severity: Severity,
    time: int)

  const SecondsPerDay: int := 86400

  /** `timezone.now().replace(hour=0, minute=0, second=0, microsecond=0)` with
      the project's time zone, UTC. */
  function DayStart(now: int): (d: int)
    ensures d <= now < d + SecondsPerDay
    ensures d % SecondsPerDay == 0
  {
    now - now % SecondsPerDay
  }

  /** The warning records the views.py evaluator writes, stamped with who,
      what, how much and when. */
  function Stamp(ws: seq<Warning>, subject: int, medication: int, quantity: int, now: int): (r: seq<WarningRecord>)
    ensures |r| == |ws|
    ensures forall i :: 0 <= i < |r| ==>
              r[i] == WarningRecord(subject, medication, quantity, ws[i].rule, ws[i].severity, now)
  {
    if |ws| == 0 then []
    else [WarningRecord(subject, medication, quantity, ws[0].rule, ws[0].severity, now)]
         + Stamp(ws[1..], subject, medication, quantity, now)
  }

  predicate CountsToday(w: WarningRecord, subject: int, medication: int, dayStart: int) {
    w.subject == subject && w.medication == medication && w.time >= dayStart
  }

  /** Sum of `quantity_taken` over today's warning records of this user and
      medication (`WarningLog.objects.filter(...).aggregate(Sum(...)) or 0`). */
  function WarnedToday(log: seq<WarningRecord>, subject: int, medication: int, dayStart: int): int {
    if |log| == 0 then 0
    else
      var last := log[|log| - 1];
      WarnedToday(log[..|log| - 1], subject, medication, dayStart)
      + (if CountsToday(last, subject, medication, dayStart) then last.quantityTaken else 0)
  }

  lemma WarnedTodayAppend(log: seq<WarningRecord>, w: WarningRecord, subject: int, medication: int, dayStart: int)
    ensures WarnedToday(log + [w], subject, medication, dayStart)
            == WarnedToday(log, subject, medication, dayStart)
               + (if CountsToday(w, subject, medication, dayStart) then w.quantityTaken else 0)
  {
    assert (log + [w])[..|log|] == log;
  }

  /** The single-dose record of the views_additions.py variant: written when the
      request exceeds the limit, HIGH above 1.5 times the limit, else MEDIUM. */
  function VariantSingle(t: Threshold, subject: int, medication: int, quantity: int, now: int)
    : (r: seq<WarningRecord>)
    ensures |r| <= 1
    ensures |r| == 1 <==> quantity > t.singleDoseLimit
    ensures forall w :: w in r ==>
              && w.rule == SingleDose
              && (w.severity == High <==> 2 * quantity > 3 * t.singleDoseLimit)
              && (w.severity != High ==> w.severity == Medium)
              && w == WarningRecord(subject, medication, quantity, SingleDose, w.severity, now)
  {
    if quantity > t.singleDoseLimit then
      [WarningRecord(subject, medication, quantity, SingleDose,
                     if 2 * quantity > 3 * t.singleDoseLimit then High else Medium, now)]
    else []
  }

  /** The daily record of the variant for the day's total `total`: CRITICAL
      over the limit, else LOW strictly above the percentage, else nothing. */
  function VariantDaily(t: Threshold, total: int, subject: int, medication: int, quantity: int, now: int)
    : (r: seq<WarningRecord>)
    ensures |r| <= 1
    ensures (|r| == 1 && r[0].rule == DailyExceeded) <==> total > t.dailyLimit
    ensures (|r| == 1 && r[0].rule == DailyApproaching) <==>
              total <= t.dailyLimit && 100 * total > t.dailyLimit * t.warningPercentage
    ensures forall w :: w in r ==>
              && (w.rule == DailyExceeded ==> w.severity == Critical)
              && (w.rule == DailyApproaching ==> w.severity == Low)
              && w.rule != SingleDose
              && w == WarningRecord(subject, medication, quantity, w.rule, w.severity, now)
  {
    if total > t.dailyLimit then
      [WarningRecord(subject, medication, quantity, DailyExceeded, Critical, now)]
    else if 100 * total > t.dailyLimit * t.warningPercentage then
      [WarningRecord(subject, medication, quantity, DailyApproaching, Low, now)]
    else []
  }

  /** `check_medication_threshold(user, medication, quantity)` of
      views_additions.py, as a transition on the warning log. The single-dose
      record is written first; the daily total is then read back from the
      warning log, so a request that broke the single-dose limit is counted
      twice in it. The boolean is `warning_created`. */
  function CheckVariant(threshold: Option<Threshold>, subject: int, medication: int, quantity: int,
                        now: int, log: seq<WarningRecord>): (r: (bool, seq<WarningRecord>))
    ensures threshold.None? ==> r == (false, log)
    ensures |log| <= |r.1| <= |log| + 2 && r.1[..|log|] == log
    ensures r.0 <==> |r.1| > |log|
    ensures threshold.Some? ==>
              var t := threshold.value;
              var total := WarnedToday(log, subject, medication, DayStart(now)) + quantity
                           + (if quantity > t.singleDoseLimit then quantity else 0);
              r.1 == log + VariantSingle(t, subject, medication, quantity, now)
                         + VariantDaily(t, total, subject, medication, quantity, now)
  {
    if threshold.None? then (false, log)
    else
      var t := threshold.value;
      var single := VariantSingle(t, subject, medication, quantity, now);
      var log1 := log + single;
      var total := WarnedToday(log1, subject, medication, DayStart(now)) + quantity;
      var log2 := log1 + VariantDaily(t, total, subject, medication, quantity, now);
      assert total == WarnedToday(log, subject, medication, DayStart(now)) + quantity
                      + (if quantity > t.singleDoseLimit then quantity else 0) by {
        if |single| == 1 {
          assert log1 == log + [single[0]];
          WarnedTodayAppend(log, single[0], subject, medication, DayStart(now));
        } else {
          assert log1 == log;
        }
      }
      assert log2[..|log|] == log;
      (|log2| > |log|, log2)
  }

  /** At exactly the warning percentage the views.py evaluator warns (MEDIUM)
      and the views_additions.py variant stays silent. */
  lemma BoundaryDiffers(subject: int, medication: int, now: int)
    ensures Evaluate(Some(Threshold(10, 10, 80)), 8, 0).severity == Some(Medium)
    ensures !CheckVariant(Some(Threshold(10, 10, 80)), subject, medication, 8, now, []).0
  {
    assert WarnedToday([], subject, medication, DayStart(now)) == 0;
  }

  /** Counting the request twice shows: with a single-dose limit of 2 and a
      daily limit of 5, a first request of 3 is over the daily limit for the
      variant (3 + 3 > 5) though the real total is 3, while views.py only
      reports the single-dose excess. */
  lemma DoubleCountExample(subject: int, medication: int, now: int)
    ensures Evaluate(Some(Threshold(5, 2, 80)), 3, 0).severity == Some(High)
    ensures var r := CheckVariant(Some(Threshold(5, 2, 80)), subject, medication, 3, now, []);
            |r.1| == 2 && r.1[1].rule == DailyExceeded && r.1[1].severity == Critical
  {
    assert WarnedToday([], subject, medication, DayStart(now)) == 0;
    var r := Evaluate(Some(Threshold(5, 2, 80)), 3, 0);
    assert r.warnings == [Warning(SingleDose, High)];
  }
}
